=== FILE: README.md ===
# Teams/SharePoint transcript downloader — a Dafny model

This project models the pure core of a browser extension that downloads
Microsoft Teams / SharePoint meeting transcripts and prints commands that
download the meeting video. It has two scripts.

- The page-world interceptor (`src/intercept.js`) wraps `window.fetch`.
  - When the first argument is a URL string for the transcript-metadata API of
    a personal OneDrive site, it posts the first listed transcript to the window.
  - When the URL contains `videomanifest`, it posts the manifest URL, cut after
    the first `index&format=dash`.
  - In every case it returns the original response unchanged.
- The content script (`src/content.js`):
  - keeps the last transcript URL and the last manifest URL it receives;
  - builds the `format=json` fetch URL;
  - converts the parsed transcript into WebVTT or into speaker-grouped text;
  - names and types the saved file;
  - prints `yt-dlp` / `ffmpeg` commands from a fixed (format × tool) table.

The Dafny modules follow that structure.

- `Wrappers`: `Option`.
- `Strings`: the JavaScript string built-ins the scripts use, each with its own contract:
  - `split` on one character, `join`, `indexOf`, `includes`, `lastIndexOf`,
    `substring`, `trim`, `padStart`, number-to-string, ASCII lower-casing;
  - `\s` as an explicit whitespace predicate (the ECMAScript WhiteSpace and
    LineTerminator characters).
- `Timestamp`: `timeToSeconds` / `secondsToVTT` as `Decode` / `Encode`.
  - Time is measured in whole milliseconds.
  - `None` stands for `NaN`.
  - `Normalize` is what the converter prints for one offset:
    `secondsToVTT(timeToSeconds(t))`.
- `Transcript`:
  - the parsed transcript document (`Document`, `Entry`);
  - `convertJSONToVTT` (via a `Cue` record per entry);
  - `convertJSONToGrouped`, both as a loop that follows the script (a method)
    and as a specification over maximal same-speaker runs (`Runs`, `Blocks`,
    `Grouped`).
- `Command`: the format and tool tables, the command-filename sanitiser and
  `buildDownloadCommand`. The command is read back by splitting it at its
  double quotes.
- `Download`, the save path of `proceedWithDownload` / `downloadDecryptedFile`:
  - the `format=json` URL;
  - the format choice;
  - the save-filename sanitiser with lower-casing;
  - the MIME lookup from the text after the last dot.
- `Relay`: the content script's `message` listener, a two-slot state updated
  by each event (`OnMessage`) and folded over a sequence of events (`Replay`).
- `Intercept`:
  - the URL predicates, including an executable matcher for the regular
    expression `https:\/\/[^\/]*-my\.sharepoint\.com\/personal\/`, proved
    equivalent to its declarative reading;
  - the manifest truncation;
  - the first-transcript extraction;
  - the fetch wrapper as a pure observation: the response plus the messages
    posted, in order;
  - the end-to-end effect of those messages on the relay slots.

Some behaviours of the code that the model keeps exactly:

- **Command filenames keep all whitespace.** The class `[^a-z0-9_\s-]`
  keeps every `\s` character, tabs and line breaks included, so
  `"My Video!"` becomes `"My Video_"` (`Command.ExampleFilename`).
- **Both sanitisers work on UTF-16 code units.** Neither pattern has the `u`
  flag, so a character outside the Basic Multilingual Plane (two code
  units) becomes `__`: `"\u{1F3AC} Demo"` (a clapper-board emoji) becomes
  `"__ Demo"` (`Command.ExampleAstralFilename`). The results are measured
  with `Utf16Length`.
- **Entry ids.** `Entry.id` may be a string or an integer. Either is falsy
  when empty or zero, and then the 1-based position is used instead.
- **Missing offsets.** An entry whose `startOffset` or `endOffset` is missing
  or not a string makes `timeToSeconds` throw on `t.split`, so
  `convertJSONToVTT` throws, the click handler alerts, and the format modal
  does not open. `Transcript.ConvertJSONToVTT` returns `None` then.

## Model

| member | source | states |
|---|---|---|
| Timestamp.DecodeCanonical | src/content.js:49-51 | Reading a canonical `HH:MM:SS.mmm` clock gives hours·3600000 + minutes·60000 + seconds·1000 + milliseconds |
| Timestamp.DecodeWellFormed | src/content.js:49-51 | Any clock of digits `H:M:W.F` reads as H·3600000 + M·60000 ms plus the seconds field `W.F` in milliseconds (`Timestamp.SecondsReading`: W·1000 plus the fraction rounded to the millisecond). There is no bound on minutes or seconds, and the hours may have one digit |
| Timestamp.DecodeWholeSeconds | src/content.js:49-51 | A clock `H:M:W` without a fraction reads as H·3600000 + M·60000 + W·1000 ms |
| Timestamp.ExampleShortHours | src/content.js:49-51 | `"1:02:03.500"` reads as 3723500 ms |
| Timestamp.ExampleLongFraction | src/content.js:49-51 | `"00:00:03.2900000"` reads as 3290 ms |
| Timestamp.ExampleWholeSeconds | src/content.js:49-51 | `"0:0:7"` reads as 7000 ms |
| Timestamp.Decode | src/content.js:49-51 | `timeToSeconds` in milliseconds, `None` for `NaN`. Its contract is carried by `Timestamp.DecodeWellFormed`, `Timestamp.DecodeWholeSeconds` and `Timestamp.DecodeCanonical` |
| Timestamp.Encode | src/content.js:54-59 | `secondsToVTT` in milliseconds. Its contract is carried by `Timestamp.EncodeCanonical`, `Timestamp.PrintedClockUnique` and `Timestamp.DecodeEncode` |
| Timestamp.Normalize | src/content.js:67-68 | What the converter prints for one offset. Its contract is carried by `Timestamp.NormalizePreservesInstant` and `Timestamp.NormalizeIdempotent` |
| Timestamp.FractionMillisNearest | src/content.js:51 | The fractional seconds are rounded to the nearest whole millisecond, with ties going up (`Math.round` of the value times 1000) |
| Timestamp.ExampleClock | src/content.js:49-58 | `"01:02:03.500"` reads as 3723500 ms, and 3723500 ms prints as `"01:02:03.500"` |
| Timestamp.EncodeCanonical | src/content.js:54-58 | The printed clock is always canonical and denotes exactly the input. Hours are `padStart(2, '0')` of their numeral: exactly two digits below 100 hours, and more digits with no leading zero from 100 hours on, never wrapping. Minutes and seconds have two digits and stay below 60. There are three millisecond digits |
| Timestamp.PrintedClockUnique | src/content.js:54-58 | Every clock of the printed layout is the encoding of the instant it denotes. So the printed text is fixed by the instant: no other padding of any field meets the contract |
| Timestamp.PrintedClockInjective | src/content.js:54-58 | Two clocks in the printed layout that denote the same instant are the same text |
| Timestamp.PrintedFieldsInjective | src/content.js:54-58 | Fields in the printed layout are fixed by the instant they add up to: hours of two digits or with no leading zero, minutes and seconds below 60, three millisecond digits |
| Timestamp.ExampleOverPaddedHours | src/content.js:55 | `"001:02:03.500"` has the canonical shape but is not a printed clock, because the hours are padded to two digits and no further |
| Timestamp.SecondsFieldLayout | src/content.js:57 | The seconds field is exactly six characters: two-digit seconds, a dot, three-digit milliseconds |
| Timestamp.SplitCanonical | src/content.js:50 | Splitting a canonical clock on `:` gives exactly the hours, minutes and seconds fields |
| Timestamp.DecodeEncode | src/content.js:49-58 | Reading a printed clock returns the millisecond value it was printed from |
| Timestamp.DecodeNaNClock | src/content.js:54-57 | The rendering of `NaN` (`"NaN:NaN:000NaN"`) reads back as `NaN` |
| Timestamp.NormalizePreservesInstant | src/content.js:67-68 | The clock printed for a transcript offset denotes the same instant as the offset, and `NaN` stays `NaN` |
| Timestamp.NormalizeIdempotent | src/content.js:67-68 | Re-normalising a printed clock changes nothing |
| Strings.SplitSpec | src/content.js:50 | `split` gives at least one field, no field contains the separator, and joining the fields with it gives back the input |
| Strings.Split | src/content.js:50 | `String.prototype.split` on one character. Its contract is carried by `Strings.SplitSpec` and `Strings.SplitJoin` |
| Strings.SplitJoin | src/content.js:50 | `split` undoes `join` when no field contains the separator |
| Strings.IndexOf | src/intercept.js:38 | `indexOf` is -1 exactly when the needle does not occur, and otherwise is its first occurrence |
| Strings.Includes | src/intercept.js:13-17 | `includes` holds exactly when the needle occurs somewhere |
| Strings.LastIndexOf | src/content.js:490 | `lastIndexOf` of a character is -1 exactly when it is absent, and otherwise is an occurrence with none after it |
| Strings.TrimSpec | src/content.js:94 | `trim` removes only leading and trailing whitespace, and the result neither starts nor ends with whitespace |
| Strings.Trim | src/content.js:94 | `String.prototype.trim`. Its contract is carried by `Strings.TrimSpec` |
| Strings.PadStart | src/content.js:55-57 | `padStart` keeps the string as the suffix and fills up to the width with the pad character |
| Strings.NatToString | src/content.js:55-56 | A number's decimal numeral is all digits, denotes the number, and has no leading zero |
| Strings.IntToString | src/content.js:72 | An integer's numeral is `-` and the digits of its magnitude when it is negative, and its digits otherwise; neither has a leading zero |
| Strings.CanonicalNumeral | src/content.js:55-56 | A digit string without a leading zero is exactly the numeral JavaScript prints for its value, so the no-leading-zero contracts fix the printed text and not only its value |
| Strings.ZeroPadValue | src/content.js:55-57 | Zero-padding a numeral keeps it all digits and keeps its value |
| Strings.PaddedNumeral | src/content.js:55-57 | A numeral of exactly `w` digits, leading zeros included, is what `toString().padStart(w, '0')` prints for its value |
| Transcript.CueIdentifierValue | src/content.js:72 | The cue identifier is the id when it is a non-empty string. A non-zero integer id gives its numeral without a leading zero, signed when negative. A missing, empty or zero id gives the numeral of the 1-based position, without a leading zero |
| Transcript.CueIdentifier | src/content.js:72 | The cue identifier: the entry's id when it is truthy, else its 1-based position. Its contract is carried by `Transcript.CueIdentifierValue` and `Strings.CanonicalNumeral` |
| Transcript.VttHeaderOnly | src/content.js:49-77 | The conversion fails (the script throws) exactly when some entry lacks a string offset. Otherwise the WebVTT text starts with `"WEBVTT\n\n"`, and is exactly that when there are no entries (or the entry list is missing) |
| Transcript.ConvertJSONToVTT | src/content.js:61-78 | `convertJSONToVTT` on the parsed document. Its contract is carried by `Transcript.VttHeaderOnly` and `Transcript.VttLines` |
| Transcript.RenderCuesAppend | src/content.js:66-75 | Cues are appended in entry order: rendering a concatenation renders each part in turn |
| Transcript.SplitCues | src/content.js:72-74 | Each cue renders as four lines: identifier, timing line, voice line and a blank line |
| Transcript.VttLines | src/content.js:61-77 | When the conversion succeeds on single-line entries, the output has 4·n+3 lines: `WEBVTT`, a blank line, four lines per entry in order (its identifier, `start --> end`, `<v speaker>text`, a blank line), then the empty last line |
| Transcript.RunsAreMaximal | src/content.js:88-101 | The runs of the entries are non-empty, neighbouring runs have different speakers, and together they list every entry's speaker (after the `Unknown` fallback) and text in order |
| Transcript.Runs | src/content.js:88-101 | The speaker runs the grouping loop builds. Its contract is carried by `Transcript.RunsAreMaximal` and `Transcript.MaximalRunsUnique` |
| Transcript.MaximalRunsUnique | src/content.js:88-101 | Any split of the entries into maximal same-speaker runs is the one the converter builds |
| Transcript.GroupOpen | src/content.js:92-97 | On a speaker change the open buffer, if non-empty, is flushed as `speaker: trimmed buffer`, and a new run starts with the entry's text |
| Transcript.GroupExtend | src/content.js:98-100 | For the same speaker again, the text is appended to the buffer after one space |
| Transcript.GroupFinish | src/content.js:103-106 | The final flush completes the blocks of all runs |
| Transcript.ConvertJSONToGrouped | src/content.js:81-108 | The loop's output is the blocks of the maximal runs (buffers joined by single spaces and trimmed, empty buffers dropped) joined by blank lines |
| Transcript.Grouped | src/content.js:81-108 | `convertJSONToGrouped` on the parsed entries. Its contract is carried by `Transcript.ConvertJSONToGrouped`, `Transcript.BlocksShape` and `Transcript.GroupedEmptyIff` |
| Transcript.BufferEmptyIff | src/content.js:93-94 | A run is dropped exactly when it is a single entry with empty text |
| Transcript.BlocksShape | src/content.js:94-105 | Every block is `speaker: trimmed buffer` of some run with a non-empty buffer, so there are no more blocks than runs |
| Transcript.GroupedEmptyIff | src/content.js:108 | The grouped text is empty exactly when no block was emitted, and in particular when there are no entries |
| Command.TrackOfName | src/content.js:600-616 | A format string selects a table row exactly when it is that row's format name |
| Command.SameExtension | src/content.js:600-616 | Both tools give each format the same extension, and `.mp4` goes exactly to `video-audio` and `video-only` |
| Command.NoQuoteInConfig | src/content.js:600-616 | No flag string or extension in either table contains a double quote |
| Command.SanitizeCommandFilenamePointwise | src/content.js:598 | The filename is mapped code unit by code unit, so the result has the name's UTF-16 length. ASCII letters, digits, `_`, `-` and whitespace stay; each code unit of anything else becomes `_`, so a character outside the Basic Multilingual Plane becomes `__` |
| Command.SanitizeCommandFilename | src/content.js:598 | The `[^a-z0-9_\s-]` replacement. Its contract is carried by `Command.SanitizeCommandFilenamePointwise` and `Command.SanitizeCommandFilenameIdempotent` |
| Command.SanitizeCommandFilenameBmp | src/content.js:598 | For a name with no character outside the Basic Multilingual Plane, the length is kept and the mapping is character for character |
| Command.ExampleAstralFilename | src/content.js:598 | `"\u{1F3AC} Demo"` becomes `"__ Demo"` |
| Command.SanitizeCommandFilenameIdempotent | src/content.js:598 | Sanitising is idempotent, leaves only allowed characters, and changes a filename exactly when it holds a disallowed character |
| Command.ExampleFilename | src/content.js:598 | `"My Video!"` becomes `"My Video_"` |
| Command.EmptyCommandIff | src/content.js:617-624 | The command is empty exactly when the format is not in the table, whatever the tool |
| Command.BuildDownloadCommand | src/content.js:597-626 | `buildDownloadCommand`. Its contract is carried by `Command.EmptyCommandIff` and `Command.CommandFields` |
| Command.CommandFields | src/content.js:608-625 | Splitting the command at its quotes gives back its parts. For `yt-dlp`: the program and flags, the sanitised output name with the extension, and the URL. For any other tool: `ffmpeg -i`, the URL, the flags, and the output name |
| Download.JsonUrlShape | src/content.js:424-426 | The JSON URL is the transcript URL, then `&` if it already has a `?` and `?` otherwise, then `format=json`; the result always has a query |
| Download.JsonUrlFreshQuery | src/content.js:424-426 | For a URL without a query, the added `?` is the URL's only question mark |
| Download.JsonUrl | src/content.js:424-426 | The `format=json` fetch URL. Its contract is carried by `Download.JsonUrlShape` and `Download.JsonUrlFreshQuery` |
| Download.SanitizeSaveFilenamePointwise | src/content.js:475 | The save filename is mapped code unit by code unit, so the result has the name's UTF-16 length. ASCII letters (lower-cased), digits and whitespace stay; each code unit of anything else becomes `_`, so a character outside the Basic Multilingual Plane becomes `__` |
| Download.SanitizeSaveFilename | src/content.js:475 | The `[^a-z0-9\s]` replacement followed by `toLowerCase`. Its contract is carried by `Download.SanitizeSaveFilenamePointwise` and `Download.SanitizeSaveFilenameChars` |
| Download.SanitizeSaveFilenameChars | src/content.js:475 | The sanitised name holds only lower-case letters, digits, whitespace and `_`. It has no dot, and sanitising again changes nothing |
| Download.SaveFilename | src/content.js:475-476 | The saved file's name. Its contract is carried by `Download.SaveFilenameLowerCase` and `Download.ProceedWithDownloadSpec` |
| Download.SaveFilenameLowerCase | src/content.js:475-476 | The saved filename (name, suffix, extension) has no upper-case ASCII letter |
| Download.LastDotStartsExtension | src/content.js:490 | In a dot-free name followed by an extension, the last dot starts the extension, and the text from it is the extension |
| Download.SavedMimeTypeMatchesFormat | src/content.js:458-491 | The MIME type looked up from the saved filename is the one of the chosen format: JSON, `text/vtt` or `text/plain` |
| Download.MimeTypeWithoutDot | src/content.js:490-491 | A filename without a dot gets `text/plain` |
| Download.MimeTypeOf | src/content.js:485-491 | The MIME lookup. Its contract is carried by `Download.SavedMimeTypeMatchesFormat` and `Download.MimeTypeWithoutDot` |
| Download.HandleDownloadClickSpec | src/content.js:409-449 | With no captured URL the click only alerts. Otherwise it fetches the `format=json` URL. The format modal opens exactly when the fetch succeeds, the text parses and every entry has both offsets, and it keeps the fetched text and its WebVTT conversion. In every other case the click alerts |
| Download.HandleDownloadClick | src/content.js:409-449 | `handleDownloadClick`. Its contract is carried by `Download.HandleDownloadClickSpec` and `Download.ClickThenSave` |
| Download.ProceedWithDownloadSpec | src/content.js:452-481 | Nothing is saved exactly when there is no transcript data or it is empty. Otherwise the data, filename and MIME type follow the selected format: `vtt` writes the WebVTT conversion of the transcript, `vtt-grouped` the grouped text, anything else the JSON as fetched |
| Download.ProceedWithDownload | src/content.js:452-481 | `proceedWithDownload` and the save it hands over. Its contract is carried by `Download.ProceedWithDownloadSpec` |
| Download.ClickThenSave | src/content.js:435-469 | After a click that opened the modal, the save's precondition holds; a file is saved exactly when the fetched text is non-empty, and its WebVTT text is the one the click prepared |
| Relay.OnMessageSlots | src/content.js:16-43 | A metadata message from the window writes only the transcript slot, and a manifest message only the manifest slot. A message is forwarded exactly when the runtime is there and the message is one of the two, and what is forwarded is the value written |
| Relay.IgnoredEvent | src/content.js:17-32 | A message from another source, or of another type, changes nothing and forwards nothing |
| Relay.SlotsIgnoreRuntime | src/content.js:24-36 | Whether the extension runtime is present makes no difference to the slots |
| Relay.ReplayTranscriptUrl | src/content.js:19-21 | After a sequence of messages, the transcript slot holds the URL of the last metadata message, or its old value if there was none |
| Relay.ReplayManifestUrl | src/content.js:32-34 | After a sequence of messages, the manifest slot holds the URL of the last manifest message, or its old value if there was none |
| Relay.OnMessage | src/content.js:16-43 | The `message` listener. Its contract is carried by `Relay.OnMessageSlots` and `Relay.IgnoredEvent` |
| Relay.Replay | src/content.js:16-43 | The listener folded over a sequence of messages. Its contract is carried by `Relay.ReplayTranscriptUrl` and `Relay.ReplayManifestUrl` |
| Relay.MetadataAndManifestCommute | src/content.js:19-42 | A metadata message and a manifest message give the same slots in either order |
| Intercept.ScanPersonalIff | src/intercept.js:12 | The left-to-right scan finds a match at or after a position exactly when the personal-site pattern matches starting there |
| Intercept.MatchesPersonalPatternIff | src/intercept.js:12 | The matcher holds exactly when the URL has `https://`, then any characters other than `/`, then `-my.sharepoint.com/personal/` |
| Intercept.TranscriptMetadataUrlIff | src/intercept.js:11-17 | The metadata branch fires exactly for a URL string that: matches the personal-site pattern; contains `_api/v2.1/drives`, `items/`, `media` and `transcripts`; and does not contain `/content` |
| Intercept.ContentEndpointExcluded | src/intercept.js:17 | A URL containing `/content`, or a non-string argument, never fires the metadata branch |
| Intercept.IsTranscriptMetadataUrl | src/intercept.js:11-17 | The metadata branch condition. Its contract is carried by `Intercept.TranscriptMetadataUrlIff` |
| Intercept.IsManifestUrl | src/intercept.js:35 | The manifest branch condition. Its contract is carried by `Intercept.ObserveSpec` and `Intercept.NonUrlFiresNothing` |
| Intercept.NonUrlFiresNothing | src/intercept.js:11-35 | A first argument that is not a string fires neither branch |
| Intercept.TruncateManifestSpec | src/intercept.js:36-41 | The manifest URL is a prefix of the request URL. It is unchanged when `index&format=dash` does not occur. Otherwise it ends with that marker, which occurs in it nowhere else |
| Intercept.TruncateManifestIdempotent | src/intercept.js:36-41 | Truncating twice is the same as truncating once |
| Intercept.TruncateManifest | src/intercept.js:36-41 | The manifest truncation. Its contract is carried by `Intercept.TruncateManifestSpec` and `Intercept.TruncateManifestIdempotent` |
| Intercept.FirstTranscriptSpec | src/intercept.js:22-29 | A metadata message is produced exactly when the body lists at least one transcript and the first one is not `null`. It carries that transcript's download URL, display name and language tag |
| Intercept.FirstTranscript | src/intercept.js:21-31 | The first-transcript extraction, with a `null` first element throwing into the `.catch`. Its contract is carried by `Intercept.FirstTranscriptSpec` and `Intercept.NullFirstTranscript` |
| Intercept.NullFirstTranscript | src/intercept.js:21-31 | On a URL that is not a manifest URL, a body whose first transcript is `null` posts nothing, whatever follows it in the list: the field read throws and the `.catch` only logs |
| Intercept.ObserveSpec | src/intercept.js:5-49 | The wrapper returns the original response and posts at most two messages. The manifest message is posted exactly when the manifest branch fires, with the truncated URL. The metadata message is posted exactly when the metadata branch fires and the body lists a first transcript that is not `null`, and it carries that transcript |
| Intercept.BothMessages | src/intercept.js:11-46 | A URL may fire both branches. Then the manifest message comes first and the metadata message second |
| Intercept.NonStringPassesThrough | src/intercept.js:6-49 | For a non-string first argument the response is returned and nothing is posted |
| Intercept.Observe | src/intercept.js:5-49 | The fetch wrapper as a pure observation. Its contract is carried by `Intercept.ObserveSpec`, `Intercept.BothMessages` and `Intercept.NonStringPassesThrough` |
| Intercept.ObserveThenRelay | src/intercept.js:21-46 | Delivering the posted messages to the listener sets the manifest slot to the truncated URL when the manifest branch fires. It sets the transcript slot to the first transcript's URL when the metadata branch fires and that transcript is listed and not `null`. Otherwise each slot keeps its value |

## Left out

- DOM and UI are not modelled:
  - button injection, modals and previews, styles;
  - `escapeHtml`, which relies on the DOM's `textContent` and `innerHTML`;
  - the MutationObserver, timers, alerts;
  - the video-filename helper that reads `document.title`.
  They are browser side effects with no pure core.
- Chrome APIs (`chrome.runtime.sendMessage`, `chrome.storage`) are foreign calls. Forwarding is modelled only as the list of payloads sent, and "runtime present" is a parameter.
- Asynchrony and I/O are not modelled: `fetch`, `response.clone()`, promise continuations. The click handler takes the fetched text as a parameter, `None` when the fetch rejects or the HTTP status is not ok. The wrapper is a pure function of the first argument, the response and the parsed body, and posted messages are listed in the order the script posts them: the manifest message synchronously, the metadata message after `json()` resolves.
- Intercept.Observe: a rejected `originalFetch` is not modelled. The wrapper then rejects with the same error before either branch runs, so nothing is posted. `Observe` takes a response that arrived.
- `JSON.parse` is not modelled. The parsed document and the parsed metadata body are inputs. A metadata body that fails to parse is only logged by the script, and the wrapper posts nothing then. A transcript that fails to parse makes the click alert (`HandleDownloadClick` gets `None`).
- Fields of the parsed document: a missing id, speaker or text is `None`. A missing or non-string offset is `None`, and the conversion fails then. An entry that is `null`, or an `entries` member that is truthy but not an array, would also make the script throw; the model has no such values.
- Transcript.CueIdentifierValue: a numeric id is an integer. Fractional ids, `NaN`, and numbers that JavaScript prints in exponent form are not modelled, because the model has no floating point.
- Download.ProceedWithDownload: requires the WebVTT conversion to have succeeded when `vtt` is selected. The script saves the `vttData` it kept from the click, and the click only opens the format modal, the one way to reach the save, after that conversion returned. The model assumes the save comes from the modal of the latest click, hidden in between. A click whose conversion throws has already replaced `transcriptData` but opens no modal; the model does not carry that global state.
- The `Blob`, object URL, anchor-click download and clipboard are foreign I/O. A save is modelled as the record of data, filename and MIME type handed to the download.
- The `g_fileInfo` fallback in `src/intercept.js` (lines 54-100) depends on the browser `URL` class, `searchParams` serialisation and page lifecycle hooks, none of which is part of this model.
- Floating point is not modelled. Time is whole milliseconds, which is what rounding to three decimals makes of it. `Decode` accepts the well-formed clock grammar: digits, `:`, digits, `:`, digits with an optional `.` and fraction digits. Any extra `:` fields are ignored. The leniency of `parseInt`/`parseFloat` (signs, surrounding blanks, trailing junk, exponents, a fraction with no whole part) is not modelled; such clocks read as `NaN`.
- Property lookups that reach `Object.prototype` are not modelled: a format named `toString`, or a MIME lookup of a dot-free filename such as `constructor`. The model treats every key outside the tables as missing.
- Only ASCII letters count as letters for the `/i` classes (no `u` flag), and lower-casing is ASCII lower-casing. Both are faithful because the sanitised name holds only ASCII letters, digits, `_` and whitespace.
- A `message` event whose `data` is `null` or not an object is not modelled (the listener would throw on `event.data.type`). `MessageData` always has the three fields read.
- Transcript.VttLines: the line-by-line layout is stated only for entries whose id, speaker and text hold no line break. A break inside a field would add extra lines, which the converter does not guard against.

=== FILE: command.dfy ===
/** `buildDownloadCommand`: the shell command the video dialog offers for
    downloading the captured stream manifest with ffmpeg or yt-dlp. */
module Command {
  import opened Wrappers
  import opened Strings

  /** The five output kinds the dialog offers. */
  datatype Track = VideoAudio | AudioM4a | AudioMp3 | AudioWav | VideoOnly

  /** The key of a track in the two command tables. */
  function FormatName(t: Track): string
  {
    match t
    case VideoAudio => "video-audio"
    case AudioM4a => "audio-m4a"
    case AudioMp3 => "audio-mp3"
    case AudioWav => "audio-wav"
    case VideoOnly => "video-only"
  }

  /** Table lookup by key; any other string has no entry. */
  function TrackOf(format: string): Option<Track>
  {
    if format == "video-audio" then Some(VideoAudio)
    else if format == "audio-m4a" then Some(AudioM4a)
    else if format == "audio-mp3" then Some(AudioMp3)
    else if format == "audio-wav" then Some(AudioWav)
    else if format == "video-only" then Some(VideoOnly)
    else None
  }

  /** The lookup finds a track exactly under that track's key. */
  lemma TrackOfName(format: string, t: Track)
    ensures TrackOf(format) == Some(t) <==> format == FormatName(t)
  {
  }

  datatype Tool = YtDlp | Ffmpeg

  /** `tool === 'yt-dlp'` selects yt-dlp; every other value falls through to
      ffmpeg. */
  function ToolOf(tool: string): Tool
  {
    if tool == "yt-dlp" then YtDlp else Ffmpeg
  }

  /** One table row: the tool's flags and the output file's extension. */
  datatype Config = Config(flags: string, ext: string)

  function FfmpegConfig(t: Track): Config
  {
    match t
    case VideoAudio => Config("-map 0:v:0 -map 0:a:0 -c copy", ".mp4")
    case AudioM4a => Config("-map 0:a:0 -vn -c:a copy", ".m4a")
    case AudioMp3 => Config("-map 0:a:0 -vn", ".mp3")
    case AudioWav => Config("-map 0:a:0 -vn", ".wav")
    case VideoOnly => Config("-map 0:v:0 -an -c:v copy", ".mp4")
  }

  /** yt-dlp always downloads 16 fragments in parallel (`-N 16`). */
  function YtDlpConfig(t: Track): Config
  {
    match t
    case VideoAudio => Config("-N 16", ".mp4")
    case AudioM4a => Config("-N 16 -x --audio-format m4a", ".m4a")
    case AudioMp3 => Config("-N 16 -x --audio-format mp3", ".mp3")
    case AudioWav => Config("-N 16 -x --audio-format wav", ".wav")
    case VideoOnly => Config("-N 16 --no-audio", ".mp4")
  }

  function ConfigFor(tool: Tool, t: Track): Config
  {
    match tool
    case YtDlp => YtDlpConfig(t)
    case Ffmpeg => FfmpegConfig(t)
  }

  /** Both tools write the same kind of file for a track, and that file is
      an `.mp4` exactly when the track keeps the video. */
  lemma SameExtension(t: Track)
    ensures YtDlpConfig(t).ext == FfmpegConfig(t).ext
    ensures FfmpegConfig(t).ext == ".mp4" <==> (t == VideoAudio || t == VideoOnly)
  {
  }

  /** The characters `[a-z0-9_\s-]` with the `i` flag keeps: ASCII letters of
      either case, digits, `_`, `-` and whitespace. */
  predicate IsCommandFilenameChar(c: char)
  {
    IsAsciiLetter(c) || IsDigit(c) || c == '_' || c == '-' || IsWhitespace(c)
  }

  /** What the replacement writes for one character of the name: the
      character itself when the class keeps it, otherwise `_` for each of
      its UTF-16 code units (the pattern has no `u` flag). */
  function CommandFilenameImage(c: char): string
  {
    if IsCommandFilenameChar(c) then [c] else Underscores(c)
  }

  /** `filename.replace(/[^a-z0-9_\s-]/gi, '_')`. */
  function SanitizeCommandFilename(s: string): (r: string)
    decreases |s|
  {
    if s == [] then [] else CommandFilenameImage(s[0]) + SanitizeCommandFilename(s[1..])
  }

  lemma {:induction false} SanitizeCommandFilenameAppend(a: string, b: string)
    ensures SanitizeCommandFilename(a + b) == SanitizeCommandFilename(a) + SanitizeCommandFilename(b)
    decreases |a|
  {
    if a == [] {
      assert a + b == b;
    } else {
      assert (a + b)[0] == a[0];
      assert (a + b)[1..] == a[1..] + b;
      SanitizeCommandFilenameAppend(a[1..], b);
    }
  }

  lemma {:induction false} SanitizeCommandFilenameLength(s: string)
    ensures |SanitizeCommandFilename(s)| == Utf16Length(s)
    decreases |s|
  {
    if s != [] {
      SanitizeCommandFilenameLength(s[1..]);
    }
  }

  lemma SanitizeCommandFilenameOne(c: char)
    ensures SanitizeCommandFilename([c]) == CommandFilenameImage(c)
  {
    assert [c][1..] == [];
  }

  /** The code units of the `i`-th character of the name start at code unit
      `Utf16Length(s[..i])` of the result and are replaced there by the
      character's image. */
  lemma SanitizeCommandFilenameAt(s: string, i: nat)
    requires i < |s|
    ensures var u, r := Utf16Length(s[..i]), SanitizeCommandFilename(s);
      u + CodeUnits(s[i]) <= |r| && r[u..u + CodeUnits(s[i])] == CommandFilenameImage(s[i])
  {
    var pre, c, post := s[..i], s[i], s[i + 1..];
    assert s == pre + [c] + post;
    SanitizeCommandFilenameAppend(pre + [c], post);
    SanitizeCommandFilenameAppend(pre, [c]);
    SanitizeCommandFilenameLength(pre);
    SanitizeCommandFilenameLength(s);
    SanitizeCommandFilenameOne(c);
    MiddlePiece(SanitizeCommandFilename(pre), CommandFilenameImage(c), SanitizeCommandFilename(post));
  }

  /** The replacement works code unit by code unit: the result has the
      JavaScript length of the name, and the code units of the name's
      `i`-th character, which start at code unit `Utf16Length(s[..i])`,
      become that character when the class keeps it and `_` each
      otherwise. */
  lemma SanitizeCommandFilenamePointwise(s: string)
    ensures |SanitizeCommandFilename(s)| == Utf16Length(s)
    ensures forall i :: 0 <= i < |s| ==>
      && Utf16Length(s[..i]) + CodeUnits(s[i]) <= |SanitizeCommandFilename(s)|
      && SanitizeCommandFilename(s)[Utf16Length(s[..i])..Utf16Length(s[..i]) + CodeUnits(s[i])]
         == (if IsCommandFilenameChar(s[i]) then [s[i]] else Underscores(s[i]))
  {
    SanitizeCommandFilenameLength(s);
    forall i | 0 <= i < |s|
      ensures
        && Utf16Length(s[..i]) + CodeUnits(s[i]) <= |SanitizeCommandFilename(s)|
        && SanitizeCommandFilename(s)[Utf16Length(s[..i])..Utf16Length(s[..i]) + CodeUnits(s[i])]
           == (if IsCommandFilenameChar(s[i]) then [s[i]] else Underscores(s[i]))
    {
      SanitizeCommandFilenameAt(s, i);
    }
  }

  /** A name whose characters all lie in the Basic Multilingual Plane keeps
      its length, and the replacement is character for character. */
  lemma {:induction false} SanitizeCommandFilenameBmp(s: string)
    requires forall i :: 0 <= i < |s| ==> CodeUnits(s[i]) == 1
    ensures |SanitizeCommandFilename(s)| == |s|
    ensures forall i :: 0 <= i < |s| ==>
      SanitizeCommandFilename(s)[i] == (if IsCommandFilenameChar(s[i]) then s[i] else '_')
    decreases |s|
  {
    if s != [] {
      SanitizeCommandFilenameBmp(s[1..]);
    }
  }

  predicate AllAllowed(s: string)
  {
    forall i :: 0 <= i < |s| ==> IsCommandFilenameChar(s[i])
  }

  lemma AllAllowedAppend(a: string, b: string)
    ensures AllAllowed(a + b) <==> AllAllowed(a) && AllAllowed(b)
  {
    if AllAllowed(a) && AllAllowed(b) {
      forall i | 0 <= i < |a + b|
        ensures IsCommandFilenameChar((a + b)[i])
      {
        if i >= |a| {
          assert (a + b)[i] == b[i - |a|];
        }
      }
    }
    if AllAllowed(a + b) {
      assert forall i :: 0 <= i < |a| ==> (a + b)[i] == a[i];
      assert forall i :: 0 <= i < |b| ==> (a + b)[|a| + i] == b[i];
    }
  }

  /** Only allowed characters come out, and a name comes out unchanged
      exactly when it is made of allowed characters. */
  lemma {:induction false} SanitizeCommandFilenameKeeps(s: string)
    ensures AllAllowed(SanitizeCommandFilename(s))
    ensures SanitizeCommandFilename(s) == s <==> AllAllowed(s)
    decreases |s|
  {
    if s != [] {
      var c, m, r := s[0], CommandFilenameImage(s[0]), SanitizeCommandFilename(s[1..]);
      SanitizeCommandFilenameKeeps(s[1..]);
      assert SanitizeCommandFilename(s) == m + r;
      assert s == [c] + s[1..];
      AllAllowedAppend(m, r);
      AllAllowedAppend([c], s[1..]);
      if !IsCommandFilenameChar(c) {
        assert (m + r)[0] == '_' != s[0];
      }
    }
  }

  /** Sanitising is idempotent: only allowed characters come out, so a
      second pass leaves a sanitised name as it is; and a name is unchanged
      exactly when it was already made of allowed characters. */
  lemma SanitizeCommandFilenameIdempotent(s: string)
    ensures forall i :: 0 <= i < |SanitizeCommandFilename(s)| ==> IsCommandFilenameChar(SanitizeCommandFilename(s)[i])
    ensures SanitizeCommandFilename(SanitizeCommandFilename(s)) == SanitizeCommandFilename(s)
    ensures SanitizeCommandFilename(s) == s <==> forall i :: 0 <= i < |s| ==> IsCommandFilenameChar(s[i])
  {
    SanitizeCommandFilenameKeeps(s);
    SanitizeCommandFilenameKeeps(SanitizeCommandFilename(s));
  }

  const Quote: string := "\""

  /** The yt-dlp template: flags, then `-o` and the quoted output file, then
      the quoted URL. */
  function YtDlpCommand(flags: string, output: string, url: string): string
  {
    "yt-dlp " + flags + " -o " + Quote + output + Quote + " " + Quote + url + Quote
  }

  /** The ffmpeg template: `-i` and the quoted URL, then the flags and the
      quoted output file. */
  function FfmpegCommand(url: string, flags: string, output: string): string
  {
    "ffmpeg -i " + Quote + url + Quote + " " + flags + " " + Quote + output + Quote
  }

  /** `buildDownloadCommand(manifestUrl, filename, format, tool)`. A format
      outside the table gives the empty string. */
  function BuildDownloadCommand(manifestUrl: string, filename: string, format: string, tool: string): string
  {
    match TrackOf(format)
    case None => ""
    case Some(t) =>
      var config := ConfigFor(ToolOf(tool), t);
      var output := SanitizeCommandFilename(filename) + config.ext;
      if ToolOf(tool) == YtDlp then YtDlpCommand(config.flags, output, manifestUrl)
      else FfmpegCommand(manifestUrl, config.flags, output)
  }

  /** The command is empty exactly when the format has no table entry. */
  lemma EmptyCommandIff(manifestUrl: string, filename: string, format: string, tool: string)
    ensures BuildDownloadCommand(manifestUrl, filename, format, tool) == "" <==> TrackOf(format) == None
  {
    var r := BuildDownloadCommand(manifestUrl, filename, format, tool);
    if TrackOf(format).Some? {
      assert |r| > 0;
    }
  }

  predicate QuoteFree(s: string) { forall i :: 0 <= i < |s| ==> s[i] != '"' }

  /** No table entry contains a quote, so the quoted fields of a command
      cannot be broken by its flags or extension. */
  lemma NoQuoteInConfig(tool: Tool, t: Track)
    ensures '"' !in ConfigFor(tool, t).flags && '"' !in ConfigFor(tool, t).ext
  {
    if tool == YtDlp { NoQuoteInYtDlpConfig(t); } else { NoQuoteInFfmpegConfig(t); }
  }

  /** Every flag string of the two tables, one ensures per literal. */
  lemma FlagLiteralsQuoteFree()
    ensures QuoteFree("-N 16")
    ensures QuoteFree("-N 16 -x --audio-format m4a")
    ensures QuoteFree("-N 16 -x --audio-format mp3")
    ensures QuoteFree("-N 16 -x --audio-format wav")
    ensures QuoteFree("-N 16 --no-audio")
    ensures QuoteFree("-map 0:v:0 -map 0:a:0 -c copy")
    ensures QuoteFree("-map 0:a:0 -vn -c:a copy")
    ensures QuoteFree("-map 0:a:0 -vn")
    ensures QuoteFree("-map 0:v:0 -an -c:v copy")
    ensures QuoteFree(".mp4") && QuoteFree(".m4a") && QuoteFree(".mp3") && QuoteFree(".wav")
  {
  }

  lemma NoQuoteInYtDlpConfig(t: Track)
    ensures QuoteFree(YtDlpConfig(t).flags) && QuoteFree(YtDlpConfig(t).ext)
  {
    FlagLiteralsQuoteFree();
  }

  lemma NoQuoteInFfmpegConfig(t: Track)
    ensures QuoteFree(FfmpegConfig(t).flags) && QuoteFree(FfmpegConfig(t).ext)
  {
    FlagLiteralsQuoteFree();
  }

  lemma NoQuoteInSanitized(s: string)
    ensures '"' !in SanitizeCommandFilename(s)
  {
    SanitizeCommandFilenameIdempotent(s);
  }

  /** Splitting a quote-free piece followed by a quote and more text on the
      quote character gives the piece and then the split of the rest. */
  lemma SplitQuotedField(a: string, rest: string)
    requires '"' !in a
    ensures Split(a + Quote + rest, '"') == [a] + Split(rest, '"')
  {
    SplitAfterField(a, '"', rest);
  }

  /** Splitting four separator-free pieces laid out as `a"b"c"d"` on the
      separator recovers them, with an empty field after the last one. */
  lemma SplitQuoted(a: string, b: string, c: string, d: string)
    requires '"' !in a && '"' !in b && '"' !in c && '"' !in d
    ensures Split(a + Quote + b + Quote + c + Quote + d + Quote, '"') == [a, b, c, d, ""]
  {
    var q := '"';
    var s4 := d + [q] + "";
    var s3 := c + [q] + s4;
    var s2 := b + [q] + s3;
    SplitNoSeparator("", q);
    SplitAfterField(d, q, "");
    SplitAfterField(c, q, s4);
    SplitAfterField(b, q, s2[|b| + 1..]);
    assert s2[|b| + 1..] == s3;
    SplitAfterField(a, q, s2);
    AppendQuoted(a, b, c, d);
  }

  lemma AppendQuoted(a: string, b: string, c: string, d: string)
    ensures a + Quote + b + Quote + c + Quote + d + Quote
         == a + ['"'] + (b + ['"'] + (c + ['"'] + (d + ['"'] + "")))
  {
    assert Quote == ['"'];
  }

  lemma YtDlpFields(flags: string, output: string, url: string)
    requires '"' !in flags && '"' !in output && '"' !in url
    ensures Split(YtDlpCommand(flags, output, url), '"') == ["yt-dlp " + flags + " -o ", output, " ", url, ""]
  {
    SplitQuoted("yt-dlp " + flags + " -o ", output, " ", url);
  }

  lemma FfmpegFields(url: string, flags: string, output: string)
    requires '"' !in flags && '"' !in output && '"' !in url
    ensures Split(FfmpegCommand(url, flags, output), '"') == ["ffmpeg -i ", url, " " + flags + " ", output, ""]
  {
    var middle := " " + flags + " ";
    assert FfmpegCommand(url, flags, output) == "ffmpeg -i " + Quote + url + Quote + middle + Quote + output + Quote;
    SplitQuoted("ffmpeg -i ", url, middle, output);
  }

  /** Read back along its quotes, a command names the manifest URL and the
      output file (sanitised name plus the table's extension) in the places
      each tool expects them, with the table's flags in front of them. */
  lemma CommandFields(manifestUrl: string, filename: string, format: string, tool: string)
    requires '"' !in manifestUrl
    requires TrackOf(format).Some?
    ensures
      var config := ConfigFor(ToolOf(tool), TrackOf(format).value);
      var output := SanitizeCommandFilename(filename) + config.ext;
      var fields := Split(BuildDownloadCommand(manifestUrl, filename, format, tool), '"');
      if ToolOf(tool) == YtDlp
      then fields == ["yt-dlp " + config.flags + " -o ", output, " ", manifestUrl, ""]
      else fields == ["ffmpeg -i ", manifestUrl, " " + config.flags + " ", output, ""]
  {
    var t := TrackOf(format).value;
    var config := ConfigFor(ToolOf(tool), t);
    var output := SanitizeCommandFilename(filename) + config.ext;
    NoQuoteInSanitized(filename);
    NoQuoteInConfig(ToolOf(tool), t);
    assert '"' !in output;
    if ToolOf(tool) == YtDlp {
      YtDlpFields(config.flags, output, manifestUrl);
    } else {
      FfmpegFields(manifestUrl, config.flags, output);
    }
  }

  /** `"My Video!"` becomes `"My Video_"`: the space is whitespace and is
      kept, the exclamation mark is replaced. */
  lemma ExampleFilename()
    ensures SanitizeCommandFilename("My Video!") == "My Video_"
  {
    SanitizeCommandFilenameBmp("My Video!");
  }

  /** A character beyond the Basic Multilingual Plane is two code units and
      becomes two underscores: `"\U{1F3AC} Demo"` becomes `"__ Demo"`. */
  lemma ExampleAstralFilename()
    ensures SanitizeCommandFilename("\U{1F3AC} Demo") == "__ Demo"
  {
    var rest := " Demo";
    assert "\U{1F3AC} Demo" == ['\U{1F3AC}'] + rest;
    SanitizeCommandFilenameAppend(['\U{1F3AC}'], rest);
    SanitizeCommandFilenameBmp(rest);
  }
}

=== FILE: download.dfy ===
/** The pure rules applied when a transcript is saved: which text is written
    for the selected format, how the file is named, which MIME type the
    saved file gets, and the `format=json` URL the transcript is fetched
    from. */
module Download {
  import opened Wrappers
  import opened Strings
  import opened Transcript

  // ---------------------------------------------------------------------------
  // the JSON fetch URL
  // ---------------------------------------------------------------------------

  const FormatJson: string := "format=json"

  /** `transcriptUrl.includes('?') ? url + '&format=json' : url + '?format=json'`. */
  function JsonUrl(url: string): string
  {
    if Includes(url, "?") then url + "&" + FormatJson else url + "?" + FormatJson
  }

  /** `includes` with a one-character argument is membership. */
  lemma IncludesChar(s: string, c: char)
    ensures Includes(s, [c]) <==> c in s
  {
    if c in s {
      var i :| 0 <= i < |s| && s[i] == c;
      assert OccursAt(s, [c], i);
    }
    if Includes(s, [c]) {
      var i :| OccursAt(s, [c], i);
      assert s[i] == s[i..i + 1][0];
    }
  }

  /** The fetch URL is the captured URL followed by one query separator and
      `format=json`: `&` extends an existing query, `?` starts one. Either
      way the result has a query. */
  lemma JsonUrlShape(url: string)
    ensures var r := JsonUrl(url);
      |r| == |url| + 1 + |FormatJson|
      && r[..|url|] == url
      && r[|url|] == (if '?' in url then '&' else '?')
      && r[|url| + 1..] == FormatJson
      && '?' in r
  {
    IncludesChar(url, '?');
    var r := JsonUrl(url);
    assert r[|url|] in r;
  }

  /** When the captured URL has no query, `format=json` becomes its only
      query: the one `?` is the separator the builder added. */
  lemma JsonUrlFreshQuery(url: string)
    requires '?' !in url
    ensures LastIndexOf(JsonUrl(url), '?') == |url|
  {
    JsonUrlShape(url);
    var r := JsonUrl(url);
    var k := LastIndexOf(r, '?');
    assert '?' !in FormatJson;
    if k < |url| {
      assert false;
    } else if k > |url| {
      assert false;
    }
  }

  // ---------------------------------------------------------------------------
  // format, suffix, extension
  // ---------------------------------------------------------------------------

  /** What the save writes: the raw JSON, the WebVTT text or the grouped
      text. */
  datatype SaveFormat = Json | Vtt | VttGrouped

  /** `selectedFormat === 'vtt'`, `=== 'vtt-grouped'`, and every other value
      keeps the JSON default. */
  function SaveFormatOf(selected: string): SaveFormat
  {
    if selected == "vtt" then Vtt
    else if selected == "vtt-grouped" then VttGrouped
    else Json
  }

  function Suffix(f: SaveFormat): string
  {
    match f
    case Json => "_transcript"
    case Vtt => "_transcript"
    case VttGrouped => "_transcript_grouped"
  }

  function Extension(f: SaveFormat): string
  {
    match f
    case Json => ".json"
    case Vtt => ".vtt"
    case VttGrouped => ".txt"
  }

  // ---------------------------------------------------------------------------
  // the saved file name
  // ---------------------------------------------------------------------------

  /** The characters `[a-z0-9\s]` with the `i` flag keeps: ASCII letters of
      either case, digits and whitespace. Unlike the command builder's
      pattern, `_` and `-` are not in the class (replacing `_` by `_` changes
      nothing; `-` is replaced). */
  predicate IsSaveFilenameChar(c: char)
  {
    IsAsciiLetter(c) || IsDigit(c) || IsWhitespace(c)
  }

  /** What the replacement writes for one character of the name: the
      character when the class keeps it, otherwise `_` for each of its
      UTF-16 code units (the pattern has no `u` flag). */
  function SaveFilenameImage(c: char): string
  {
    if IsSaveFilenameChar(c) then [c] else Underscores(c)
  }

  /** `name.replace(/[^a-z0-9\s]/gi, '_')`. */
  function ReplaceDisallowed(s: string): string
    decreases |s|
  {
    if s == [] then [] else SaveFilenameImage(s[0]) + ReplaceDisallowed(s[1..])
  }

  /** `toLowerCase()`, on text in which only ASCII letters can be letters. */
  function LowerCase(s: string): string
    decreases |s|
  {
    if s == [] then [] else [ToLowerAscii(s[0])] + LowerCase(s[1..])
  }

  function SanitizeSaveFilename(s: string): string
  {
    LowerCase(ReplaceDisallowed(s))
  }

  /** What a sanitised name is made of: lower-case ASCII letters, digits,
      whitespace and `_`. */
  predicate IsSanitizedChar(c: char)
  {
    'a' <= c <= 'z' || IsDigit(c) || IsWhitespace(c) || c == '_'
  }

  lemma {:induction false} ReplaceDisallowedAppend(a: string, b: string)
    ensures ReplaceDisallowed(a + b) == ReplaceDisallowed(a) + ReplaceDisallowed(b)
    decreases |a|
  {
    if a == [] {
      assert a + b == b;
    } else {
      assert (a + b)[0] == a[0];
      assert (a + b)[1..] == a[1..] + b;
      ReplaceDisallowedAppend(a[1..], b);
    }
  }

  lemma {:induction false} LowerCaseAppend(a: string, b: string)
    ensures LowerCase(a + b) == LowerCase(a) + LowerCase(b)
    decreases |a|
  {
    if a == [] {
      assert a + b == b;
    } else {
      assert (a + b)[0] == a[0];
      assert (a + b)[1..] == a[1..] + b;
      LowerCaseAppend(a[1..], b);
    }
  }

  /** Sanitising a concatenation sanitises each part. */
  lemma SanitizeSaveFilenameAppend(a: string, b: string)
    ensures SanitizeSaveFilename(a + b) == SanitizeSaveFilename(a) + SanitizeSaveFilename(b)
  {
    ReplaceDisallowedAppend(a, b);
    LowerCaseAppend(ReplaceDisallowed(a), ReplaceDisallowed(b));
  }

  /** What sanitising writes for one character: a kept letter lower-cased,
      a kept digit or whitespace character as it is, and `_` for each code
      unit of anything else. */
  function SanitizedImage(c: char): string
  {
    if IsSaveFilenameChar(c) then [ToLowerAscii(c)] else Underscores(c)
  }

  lemma LowerCaseUnderscores(c: char)
    ensures LowerCase(Underscores(c)) == Underscores(c)
  {
    assert "_"[1..] == [];
    assert LowerCase("_") == [ToLowerAscii('_')] + LowerCase([]) == "_";
    if c as int > 0xFFFF {
      assert "__"[1..] == "_";
      assert LowerCase("__") == [ToLowerAscii('_')] + LowerCase("_") == "__";
    }
  }

  lemma SanitizeSaveFilenameOne(c: char)
    ensures SanitizeSaveFilename([c]) == SanitizedImage(c)
  {
    assert [c][1..] == [];
    assert ReplaceDisallowed([c]) == SaveFilenameImage(c) + [];
    if IsSaveFilenameChar(c) {
      assert LowerCase([c]) == [ToLowerAscii(c)] + LowerCase([]);
    } else {
      assert ReplaceDisallowed([c]) == Underscores(c);
      LowerCaseUnderscores(c);
    }
  }

  lemma {:induction false} SanitizeSaveFilenameLength(s: string)
    ensures |SanitizeSaveFilename(s)| == Utf16Length(s)
    decreases |s|
  {
    if s != [] {
      assert s == [s[0]] + s[1..];
      SanitizeSaveFilenameAppend([s[0]], s[1..]);
      SanitizeSaveFilenameOne(s[0]);
      SanitizeSaveFilenameLength(s[1..]);
    }
  }

  /** The code units of the `i`-th character of the name start at code unit
      `Utf16Length(s[..i])` of the result and are replaced there by the
      character's image. */
  lemma SanitizeSaveFilenameAt(s: string, i: nat)
    requires i < |s|
    ensures var u, r := Utf16Length(s[..i]), SanitizeSaveFilename(s);
      u + CodeUnits(s[i]) <= |r| && r[u..u + CodeUnits(s[i])] == SanitizedImage(s[i])
  {
    var pre, c, post := s[..i], s[i], s[i + 1..];
    assert s == pre + [c] + post;
    SanitizeSaveFilenameAppend(pre + [c], post);
    SanitizeSaveFilenameAppend(pre, [c]);
    SanitizeSaveFilenameLength(pre);
    SanitizeSaveFilenameLength(s);
    SanitizeSaveFilenameOne(c);
    MiddlePiece(SanitizeSaveFilename(pre), SanitizedImage(c), SanitizeSaveFilename(post));
  }

  /** Sanitising works code unit by code unit: the result has the
      JavaScript length of the name, and the code units of the name's `i`-th
      character, which start at code unit `Utf16Length(s[..i])`, become the
      character lower-cased when the class keeps it and `_` each
      otherwise. */
  lemma SanitizeSaveFilenamePointwise(s: string)
    ensures |SanitizeSaveFilename(s)| == Utf16Length(s)
    ensures forall i :: 0 <= i < |s| ==>
      && Utf16Length(s[..i]) + CodeUnits(s[i]) <= |SanitizeSaveFilename(s)|
      && SanitizeSaveFilename(s)[Utf16Length(s[..i])..Utf16Length(s[..i]) + CodeUnits(s[i])]
         == (if IsSaveFilenameChar(s[i]) then [ToLowerAscii(s[i])] else Underscores(s[i]))
  {
    SanitizeSaveFilenameLength(s);
    forall i | 0 <= i < |s|
      ensures
        && Utf16Length(s[..i]) + CodeUnits(s[i]) <= |SanitizeSaveFilename(s)|
        && SanitizeSaveFilename(s)[Utf16Length(s[..i])..Utf16Length(s[..i]) + CodeUnits(s[i])]
           == (if IsSaveFilenameChar(s[i]) then [ToLowerAscii(s[i])] else Underscores(s[i]))
    {
      SanitizeSaveFilenameAt(s, i);
    }
  }

  predicate AllSanitized(s: string)
  {
    forall i :: 0 <= i < |s| ==> IsSanitizedChar(s[i])
  }

  lemma AllSanitizedAppend(a: string, b: string)
    ensures AllSanitized(a + b) <==> AllSanitized(a) && AllSanitized(b)
  {
    if AllSanitized(a) && AllSanitized(b) {
      forall i | 0 <= i < |a + b|
        ensures IsSanitizedChar((a + b)[i])
      {
        if i >= |a| {
          assert (a + b)[i] == b[i - |a|];
        }
      }
    }
    if AllSanitized(a + b) {
      assert forall i :: 0 <= i < |a| ==> (a + b)[i] == a[i];
      assert forall i :: 0 <= i < |b| ==> (a + b)[|a| + i] == b[i];
    }
  }

  /** The characters of a sanitised name are all sanitised characters, and
      a name made only of them comes out unchanged. */
  lemma {:induction false} SanitizeSaveFilenameKeeps(s: string)
    ensures AllSanitized(SanitizeSaveFilename(s))
    ensures AllSanitized(s) ==> SanitizeSaveFilename(s) == s
    decreases |s|
  {
    if s != [] {
      var c, m, r := s[0], SanitizedImage(s[0]), SanitizeSaveFilename(s[1..]);
      assert s == [c] + s[1..];
      SanitizeSaveFilenameAppend([c], s[1..]);
      SanitizeSaveFilenameOne(c);
      SanitizeSaveFilenameKeeps(s[1..]);
      assert AllSanitized(m);
      AllSanitizedAppend(m, r);
      AllSanitizedAppend([c], s[1..]);
    }
  }

  /** A sanitised name holds no upper-case letter and no `.`, and a second
      pass leaves it unchanged. */
  lemma SanitizeSaveFilenameChars(s: string)
    ensures forall i :: 0 <= i < |SanitizeSaveFilename(s)| ==> IsSanitizedChar(SanitizeSaveFilename(s)[i])
    ensures '.' !in SanitizeSaveFilename(s)
    ensures SanitizeSaveFilename(SanitizeSaveFilename(s)) == SanitizeSaveFilename(s)
  {
    var r := SanitizeSaveFilename(s);
    SanitizeSaveFilenameKeeps(s);
    SanitizeSaveFilenameKeeps(r);
    assert forall i :: 0 <= i < |r| ==> r[i] != '.';
  }

  /** `${sanitizedFilename}${suffix}${extension}`. */
  function SaveFilename(customFilename: string, selected: string): string
  {
    var f := SaveFormatOf(selected);
    SanitizeSaveFilename(customFilename) + Suffix(f) + Extension(f)
  }

  predicate NoUpperCase(s: string)
  {
    forall i :: 0 <= i < |s| ==> !IsAsciiUpper(s[i])
  }

  lemma NoUpperCaseAppend(a: string, b: string)
    requires NoUpperCase(a) && NoUpperCase(b)
    ensures NoUpperCase(a + b)
  {
    forall i | 0 <= i < |a + b|
      ensures !IsAsciiUpper((a + b)[i])
    {
      if i >= |a| {
        assert (a + b)[i] == b[i - |a|];
      }
    }
  }

  lemma SuffixAndExtensionLowerCase(f: SaveFormat)
    ensures NoUpperCase(Suffix(f)) && NoUpperCase(Extension(f))
  {
  }

  /** The saved file name contains no upper-case ASCII letter, whatever the
      user typed. */
  lemma SaveFilenameLowerCase(customFilename: string, selected: string)
    ensures NoUpperCase(SaveFilename(customFilename, selected))
  {
    var f := SaveFormatOf(selected);
    var name := SanitizeSaveFilename(customFilename);
    SanitizeSaveFilenameChars(customFilename);
    SuffixAndExtensionLowerCase(f);
    NoUpperCaseAppend(name, Suffix(f));
    NoUpperCaseAppend(name + Suffix(f), Extension(f));
  }

  // ---------------------------------------------------------------------------
  // MIME type
  // ---------------------------------------------------------------------------

  /** The three-entry `mimeTypes` table with its `|| 'text/plain'` default. */
  function MimeTypeOfExtension(ext: string): string
  {
    if ext == ".json" then "application/json"
    else if ext == ".vtt" then "text/vtt"
    else "text/plain"
  }

  /** `filename.substring(filename.lastIndexOf('.'))` looked up in the
      table. With no `.` the index is -1, `substring` clamps it to 0, and the
      whole name is looked up. */
  function MimeTypeOf(filename: string): string
  {
    MimeTypeOfExtension(SubstringFrom(filename, LastIndexOf(filename, '.')))
  }

  /** The MIME type each save format is meant to get. */
  function FormatMimeType(f: SaveFormat): string
  {
    match f
    case Json => "application/json"
    case Vtt => "text/vtt"
    case VttGrouped => "text/plain"
  }

  /** In `prefix + ext` with no `.` in `prefix` and exactly one `.`, at the
      front, in `ext`, the last `.` starts `ext`. */
  lemma LastDotStartsExtension(prefix: string, ext: string)
    requires '.' !in prefix
    requires |ext| > 0 && ext[0] == '.' && '.' !in ext[1..]
    ensures LastIndexOf(prefix + ext, '.') == |prefix|
    ensures SubstringFrom(prefix + ext, |prefix|) == ext
  {
    var s := prefix + ext;
    assert s[|prefix|] == '.';
    var k := LastIndexOf(s, '.');
    if k < |prefix| {
      assert false;
    } else if k > |prefix| {
      assert false;
    }
    assert s[|prefix|..] == ext;
  }

  /** The extension the save appends decides the MIME type: a saved file is
      `application/json`, `text/vtt` or `text/plain` according to its
      format, never the table's default by accident. */
  lemma SavedMimeTypeMatchesFormat(customFilename: string, selected: string)
    ensures MimeTypeOf(SaveFilename(customFilename, selected)) == FormatMimeType(SaveFormatOf(selected))
  {
    var f := SaveFormatOf(selected);
    var name := SanitizeSaveFilename(customFilename);
    SanitizeSaveFilenameChars(customFilename);
    var prefix := name + Suffix(f);
    assert '.' !in Suffix(f);
    assert '.' !in prefix;
    assert '.' !in Extension(f)[1..];
    LastDotStartsExtension(prefix, Extension(f));
    assert SaveFilename(customFilename, selected) == prefix + Extension(f);
  }

  /** A name without any `.` is looked up whole, so it gets the default
      `text/plain`, even when it spells an extension without the dot. */
  lemma MimeTypeWithoutDot(filename: string)
    requires '.' !in filename
    ensures MimeTypeOf(filename) == "text/plain"
  {
    assert filename != ".json" && filename != ".vtt" by {
      assert ".json"[0] == '.';
      assert ".vtt"[0] == '.';
    }
  }

  // ---------------------------------------------------------------------------
  // handleDownloadClick
  // ---------------------------------------------------------------------------

  /** What a click on the injected download button leads to: an alert that
      no transcript URL was captured, an alert after the fetch from
      `fetchedFrom` failed or the conversion threw, or the format modal,
      with the fetched text and its WebVTT conversion kept for the save. */
  datatype ClickOutcome =
    | NoUrlAlert
    | ErrorAlert(fetchedFrom: string)
    | FormatModal(fetchedFrom: string, transcriptData: string, vttData: string)

  /** `handleDownloadClick`. `fetched` is the body of the response to the
      `format=json` URL, `None` when the fetch rejects or the response is
      not ok; `doc` is what `JSON.parse` makes of it, `None` when it
      throws. */
  function HandleDownloadClick(transcriptUrl: Option<string>, fetched: Option<string>,
                               doc: Option<Document>): ClickOutcome
  {
    if transcriptUrl.GetOr("") == "" then NoUrlAlert
    else
      var jsonUrl := JsonUrl(transcriptUrl.value);
      if fetched.None? || doc.None? then ErrorAlert(jsonUrl)
      else match ConvertJSONToVTT(doc.value)
        case None => ErrorAlert(jsonUrl)
        case Some(vtt) => FormatModal(jsonUrl, fetched.value, vtt)
  }

  /** The modal opens exactly when a URL was captured, the fetch succeeded,
      the text parsed and every entry has both offsets; whatever happens
      after the URL check, the request goes to the `format=json` URL. */
  lemma HandleDownloadClickSpec(transcriptUrl: Option<string>, fetched: Option<string>, doc: Option<Document>)
    ensures var o := HandleDownloadClick(transcriptUrl, fetched, doc);
      && (o.NoUrlAlert? <==> transcriptUrl.GetOr("") == "")
      && (o.FormatModal? <==>
            transcriptUrl.GetOr("") != "" && fetched.Some? && doc.Some?
            && AllHaveOffsets(EntriesOf(doc.value)))
      && (!o.NoUrlAlert? ==> o.fetchedFrom == JsonUrl(transcriptUrl.value) && '?' in o.fetchedFrom)
      && (o.FormatModal? ==>
            o.transcriptData == fetched.value && Some(o.vttData) == ConvertJSONToVTT(doc.value))
  {
    if transcriptUrl.GetOr("") != "" {
      JsonUrlShape(transcriptUrl.value);
    }
  }

  // ---------------------------------------------------------------------------
  // proceedWithDownload
  // ---------------------------------------------------------------------------

  /** One download handed to the browser: the text written, the file name
      and the Blob's MIME type. */
  datatype SavedFile = SavedFile(data: string, filename: string, mimeType: string)

  /** The text written for a format: the fetched JSON as it came, its
      WebVTT conversion (made when the transcript was fetched; the modal
      that leads here only opens once it succeeded), or the grouped text
      computed now from the parsed transcript. */
  function OutputData(f: SaveFormat, transcriptData: string, doc: Document): string
    requires f == Vtt ==> ConvertJSONToVTT(doc).Some?
  {
    match f
    case Json => transcriptData
    case Vtt => ConvertJSONToVTT(doc).value
    case VttGrouped => Grouped(EntriesOf(doc))
  }

  /** `proceedWithDownload(customFilename)` followed by
      `downloadDecryptedFile`. `transcriptData` is the fetched JSON text
      (`None` before any fetch) and `doc` what `JSON.parse` makes of it;
      with no transcript text nothing is saved. The WebVTT text it reads is
      only ever set by a conversion that succeeded. */
  function ProceedWithDownload(transcriptData: Option<string>, doc: Document,
                               selected: string, customFilename: string): (r: Option<SavedFile>)
    requires SaveFormatOf(selected) == Vtt ==> ConvertJSONToVTT(doc).Some?
  {
    if transcriptData.None? || transcriptData.value == "" then None
    else
      var f := SaveFormatOf(selected);
      var filename := SaveFilename(customFilename, selected);
      Some(SavedFile(OutputData(f, transcriptData.value, doc), filename, MimeTypeOf(filename)))
  }

  /** A file is saved exactly when transcript text is present; it is named
      by the sanitised name, the format's suffix and extension, carries the
      format's MIME type and the format's text. */
  lemma ProceedWithDownloadSpec(transcriptData: Option<string>, doc: Document,
                                selected: string, customFilename: string)
    requires SaveFormatOf(selected) == Vtt ==> ConvertJSONToVTT(doc).Some?
    ensures var r := ProceedWithDownload(transcriptData, doc, selected, customFilename);
      (r.None? <==> transcriptData.GetOr("") == "")
      && (r.Some? ==>
        var f := SaveFormatOf(selected);
        r.value.filename == SanitizeSaveFilename(customFilename) + Suffix(f) + Extension(f)
        && r.value.mimeType == FormatMimeType(f)
        && r.value.data == (match f
                            case Json => transcriptData.value
                            case Vtt => ConvertJSONToVTT(doc).value
                            case VttGrouped => Grouped(EntriesOf(doc))))
  {
    SavedMimeTypeMatchesFormat(customFilename, selected);
  }

  /** A save from the modal a click opened: the save's precondition holds,
      a file is saved whenever the fetched text is not empty, and its
      WebVTT text is the one the click prepared. */
  lemma ClickThenSave(transcriptUrl: Option<string>, fetched: Option<string>, doc: Document,
                      selected: string, customFilename: string)
    requires HandleDownloadClick(transcriptUrl, fetched, Some(doc)).FormatModal?
    ensures ConvertJSONToVTT(doc).Some?
    ensures var o := HandleDownloadClick(transcriptUrl, fetched, Some(doc));
      var r := ProceedWithDownload(Some(o.transcriptData), doc, selected, customFilename);
      && (r.Some? <==> o.transcriptData != "")
      && (r.Some? && SaveFormatOf(selected) == Vtt ==> r.value.data == o.vttData)
  {
    HandleDownloadClickSpec(transcriptUrl, fetched, Some(doc));
    ProceedWithDownloadSpec(Some(HandleDownloadClick(transcriptUrl, fetched, Some(doc)).transcriptData),
                            doc, selected, customFilename);
  }
}

=== FILE: intercept.dfy ===
/** The page-world `fetch` wrapper: it lets every request through unchanged,
    and on the side recognises the SharePoint transcript-metadata call (whose
    JSON names the transcript's temporary download URL) and video manifest
    requests, and posts what it found to the window. */
module Intercept {
  import opened Wrappers
  import opened Strings
  import Relay

  /** `args[0]` of the wrapped `fetch`: a string, or anything else (a
      `Request` object, a `URL`, `undefined`). */
  datatype FetchArg = UrlString(s: string) | NonString

  /** `url && typeof url === 'string'`: a string, and not the empty one. */
  predicate IsUrlString(arg: FetchArg)
  {
    arg.UrlString? && arg.s != ""
  }

  // ---------------------------------------------------------------------------
  // /https:\/\/[^\/]*-my\.sharepoint\.com\/personal\//
  // ---------------------------------------------------------------------------

  const Https: string := "https://"
  const MyHost: string := "-my.sharepoint.com"
  const Personal: string := "/personal/"

  predicate SlashFree(s: string)
  {
    forall k :: 0 <= k < |s| ==> s[k] != '/'
  }

  /** The pattern matched at `i`, with the `[^/]*` part spanning `i+8..j`:
      `https://`, then slash-free text, then `-my.sharepoint.com/personal/`. */
  ghost predicate PersonalMatch(url: string, i: int, j: int)
  {
    OccursAt(url, Https, i) && i + |Https| <= j <= |url|
    && SlashFree(url[i + |Https|..j])
    && OccursAt(url, MyHost + Personal, j)
  }

  /** `RegExp.prototype.test`: the unanchored pattern matches somewhere. */
  ghost predicate PersonalPatternMatches(url: string)
  {
    exists i, j :: PersonalMatch(url, i, j)
  }

  /** The first `/` at or after `k`, or `|s|` when there is none. */
  function FirstSlashFrom(s: string, k: nat): (p: nat)
    requires k <= |s|
    ensures k <= p <= |s|
    ensures p < |s| ==> s[p] == '/'
    ensures SlashFree(s[k..p])
    decreases |s| - k
  {
    if k == |s| || s[k] == '/' then k
    else
      var p := FirstSlashFrom(s, k + 1);
      assert s[k..p] == [s[k]] + s[k + 1..p];
      p
  }

  /** The matcher's check at one start: since neither `[^/]*` nor
      `-my.sharepoint.com` can contain `/`, the host must end right before
      the first `/` after `https://`, and `/personal/` must start there. */
  predicate PersonalMatchAt(url: string, i: nat)
  {
    OccursAt(url, Https, i)
    && var p := FirstSlashFrom(url, i + |Https|);
       i + |Https| + |MyHost| <= p
       && OccursAt(url, MyHost, p - |MyHost|)
       && OccursAt(url, Personal, p)
  }

  /** Tries every start from `i` on. */
  function ScanPersonal(url: string, i: nat): bool
    decreases |url| - i
  {
    if i >= |url| then false
    else PersonalMatchAt(url, i) || ScanPersonal(url, i + 1)
  }

  function MatchesPersonalPattern(url: string): bool
  {
    ScanPersonal(url, 0)
  }

  lemma LiteralFacts()
    ensures |Https| == 8 && |MyHost| == 18 && |Personal| == 10
    ensures SlashFree(MyHost)
    ensures Personal[0] == '/'
  {
  }

  /** `a + b` occurs at `j` exactly when `a` occurs at `j` and `b` right
      after it. */
  lemma OccursAtAppend(s: string, a: string, b: string, j: int)
    ensures OccursAt(s, a + b, j) <==> OccursAt(s, a, j) && OccursAt(s, b, j + |a|)
  {
    if OccursAt(s, a, j) && OccursAt(s, b, j + |a|) {
      assert s[j..j + |a + b|] == s[j..j + |a|] + s[j + |a|..j + |a| + |b|];
    }
    if OccursAt(s, a + b, j) {
      assert s[j..j + |a|] == s[j..j + |a + b|][..|a|];
      assert s[j + |a|..j + |a| + |b|] == s[j..j + |a + b|][|a|..];
    }
  }

  lemma PersonalMatchAtSound(url: string, i: nat)
    requires PersonalMatchAt(url, i)
    ensures PersonalMatch(url, i, FirstSlashFrom(url, i + |Https|) - |MyHost|)
  {
    LiteralFacts();
    var p := FirstSlashFrom(url, i + 8);
    var j := p - 18;
    OccursAtAppend(url, MyHost, Personal, j);
    assert url[i + 8..j] == url[i + 8..p][..j - i - 8];
  }

  lemma PersonalMatchAtComplete(url: string, i: nat, j: int)
    requires PersonalMatch(url, i, j)
    ensures PersonalMatchAt(url, i)
  {
    LiteralFacts();
    OccursAtAppend(url, MyHost, Personal, j);
    var p := j + 18;
    assert url[j..p] == MyHost;
    assert url[p] == '/' by { assert url[p..p + 10][0] == url[p]; }
    forall k | i + 8 <= k < p ensures url[k] != '/' {
      if k < j { assert url[k] == url[i + 8..j][k - i - 8]; }
      else { assert url[k] == url[j..p][k - j]; }
    }
    FirstSlashIsAt(url, i + 8, p);
  }

  /** The check at one start agrees with the pattern at that start. */
  lemma PersonalMatchAtIff(url: string, i: nat)
    ensures PersonalMatchAt(url, i) <==> exists j :: PersonalMatch(url, i, j)
  {
    if PersonalMatchAt(url, i) {
      PersonalMatchAtSound(url, i);
    }
    if j :| PersonalMatch(url, i, j) {
      PersonalMatchAtComplete(url, i, j);
    }
  }

  /** A `/` at `p` with none in `k..p` is the first one from `k`. */
  lemma FirstSlashIsAt(s: string, k: nat, p: nat)
    requires k <= p < |s| && s[p] == '/'
    requires forall m :: k <= m < p ==> s[m] != '/'
    ensures FirstSlashFrom(s, k) == p
  {
    var q := FirstSlashFrom(s, k);
    if q < p {
      assert false;
    } else if q > p {
      assert false;
    }
  }

  /** The scan from `k` succeeds exactly when some start at or after `k`
      passes the check. */
  lemma {:induction false} ScanPersonalIff(url: string, k: nat)
    ensures ScanPersonal(url, k) <==> exists i: nat :: k <= i < |url| && PersonalMatchAt(url, i)
    decreases |url| - k
  {
    if k < |url| {
      ScanPersonalIff(url, k + 1);
    }
  }

  /** The matcher decides the regular expression: it answers true exactly
      when `https://`, slash-free text and `-my.sharepoint.com/personal/`
      occur in a row somewhere in the URL. */
  lemma MatchesPersonalPatternIff(url: string)
    ensures MatchesPersonalPattern(url) <==> PersonalPatternMatches(url)
  {
    ScanPersonalIff(url, 0);
    if MatchesPersonalPattern(url) {
      var i: nat :| i < |url| && PersonalMatchAt(url, i);
      PersonalMatchAtIff(url, i);
    }
    if PersonalPatternMatches(url) {
      var i, j :| PersonalMatch(url, i, j);
      PersonalMatchAtIff(url, i);
    }
  }

  // ---------------------------------------------------------------------------
  // the two URL predicates
  // ---------------------------------------------------------------------------

  /** The media-API metadata call of a personal OneDrive/SharePoint site,
      but not the `/content` endpoint that serves the transcript itself. */
  predicate IsTranscriptMetadataUrl(arg: FetchArg)
  {
    IsUrlString(arg)
    && MatchesPersonalPattern(arg.s)
    && Includes(arg.s, "_api/v2.1/drives")
    && Includes(arg.s, "items/")
    && Includes(arg.s, "media")
    && Includes(arg.s, "transcripts")
    && !Includes(arg.s, "/content")
  }

  /** The metadata test in terms of the pattern and plain substring
      occurrence: the argument is a string in which the personal-site
      pattern matches and the four API markers occur, and `/content` does
      not occur. */
  lemma TranscriptMetadataUrlIff(url: string)
    ensures IsTranscriptMetadataUrl(UrlString(url)) <==>
      PersonalPatternMatches(url)
      && Contains(url, "_api/v2.1/drives") && Contains(url, "items/")
      && Contains(url, "media") && Contains(url, "transcripts")
      && !Contains(url, "/content")
  {
    MatchesPersonalPatternIff(url);
    if Contains(url, "media") {
      var i :| OccursAt(url, "media", i);
      assert url != "";
    }
  }

  /** A URL naming the `/content` endpoint never counts as the metadata
      call, whatever else it contains; neither does a non-string argument. */
  lemma ContentEndpointExcluded(arg: FetchArg)
    requires arg.NonString? || Contains(arg.s, "/content")
    ensures !IsTranscriptMetadataUrl(arg)
  {
  }

  const ManifestMarker: string := "videomanifest"
  const DashMarker: string := "index&format=dash"

  /** `url && typeof url === 'string' && url.includes('videomanifest')`. */
  predicate IsManifestUrl(arg: FetchArg)
  {
    IsUrlString(arg) && Includes(arg.s, ManifestMarker)
  }

  /** A non-string argument, or the empty string, fires neither test. */
  lemma NonUrlFiresNothing(arg: FetchArg)
    requires !IsUrlString(arg)
    ensures !IsTranscriptMetadataUrl(arg) && !IsManifestUrl(arg)
  {
  }

  // ---------------------------------------------------------------------------
  // manifest truncation
  // ---------------------------------------------------------------------------

  /** Cut the URL right after the first `index&format=dash`, keeping the
      marker; a URL without it is kept whole. */
  function TruncateManifest(url: string): string
  {
    var k := IndexOf(url, DashMarker);
    if k == -1 then url else url[..k + |DashMarker|]
  }

  /** The truncated URL is a prefix of the original. If the marker occurs,
      the result ends with it and holds it nowhere else (the cut is at the
      first occurrence); if it does not occur, the URL is unchanged. */
  lemma TruncateManifestSpec(url: string)
    ensures var r := TruncateManifest(url);
      |r| <= |url| && r == url[..|r|]
      && (!Contains(url, DashMarker) ==> r == url)
      && (Contains(url, DashMarker) ==>
            |r| >= |DashMarker| && OccursAt(r, DashMarker, |r| - |DashMarker|)
            && forall i :: OccursAt(r, DashMarker, i) ==> i == |r| - |DashMarker|)
  {
    var k := IndexOf(url, DashMarker);
    var r := TruncateManifest(url);
    if k != -1 {
      assert r[k..k + |DashMarker|] == url[k..k + |DashMarker|];
      forall i | OccursAt(r, DashMarker, i)
        ensures i == |r| - |DashMarker|
      {
        assert r[i..i + |DashMarker|] == url[i..i + |DashMarker|];
        assert OccursAt(url, DashMarker, i);
      }
    }
  }

  /** Truncating twice is truncating once. */
  lemma TruncateManifestIdempotent(url: string)
    ensures TruncateManifest(TruncateManifest(url)) == TruncateManifest(url)
  {
    TruncateManifestSpec(url);
    var r := TruncateManifest(url);
    if Contains(url, DashMarker) {
      var k := IndexOf(r, DashMarker);
      assert OccursAt(r, DashMarker, |r| - |DashMarker|);
      assert k == |r| - |DashMarker|;
      assert r[..k + |DashMarker|] == r;
    } else {
      assert r == url;
    }
  }

  // ---------------------------------------------------------------------------
  // the metadata payload
  // ---------------------------------------------------------------------------

  /** One element of `media.transcripts`. */
  datatype TranscriptInfo = TranscriptInfo(
    temporaryDownloadUrl: Option<string>,
    displayName: Option<string>,
    languageTag: Option<string>)

  /** `data.media`; its `transcripts` member may be missing. An element is
      `None` when it is `null` or `undefined`; any other value reads its
      three fields, each `None` when absent. */
  datatype Media = Media(transcripts: Option<seq<Option<TranscriptInfo>>>)

  /** The parsed metadata response; its `media` member may be missing. */
  datatype MetadataBody = MetadataBody(media: Option<Media>)

  /** What the wrapper posts to the window. */
  datatype PageMessage =
    | TranscriptMetadata(temporaryDownloadUrl: Option<string>, displayName: Option<string>, languageTag: Option<string>)
    | VideoManifestUrl(manifestUrl: string)

  /** The guard `data && data.media && data.media.transcripts &&
      data.media.transcripts.length > 0` and the message built from the
      first transcript. `None` for the body stands for a null body or one
      that `json()` rejected. A `null` first element makes the field read
      throw inside the callback; the `.catch` swallows it and nothing is
      posted. */
  function FirstTranscript(data: Option<MetadataBody>): Option<PageMessage>
  {
    match data
    case None => None
    case Some(body) =>
      match body.media
      case None => None
      case Some(media) =>
        match media.transcripts
        case None => None
        case Some(ts) =>
          if |ts| == 0 then None
          else match ts[0]
            case None => None
            case Some(t) => Some(TranscriptMetadata(t.temporaryDownloadUrl, t.displayName, t.languageTag))
  }

  /** The transcripts listed in a body, `[]` when any level is missing. */
  function ListedTranscripts(data: Option<MetadataBody>): seq<Option<TranscriptInfo>>
  {
    if data.Some? && data.value.media.Some? && data.value.media.value.transcripts.Some?
    then data.value.media.value.transcripts.value
    else []
  }

  /** The body lists a transcript and the first one is not `null`. */
  predicate ReadableFirst(data: Option<MetadataBody>)
  {
    |ListedTranscripts(data)| > 0 && ListedTranscripts(data)[0].Some?
  }

  /** A message is produced exactly when the body lists a transcript whose
      first element is not `null`, and it copies that element's three
      fields. */
  lemma FirstTranscriptSpec(data: Option<MetadataBody>)
    ensures var m := FirstTranscript(data); var ts := ListedTranscripts(data);
      (m.Some? <==> |ts| > 0 && ts[0].Some?)
      && (m.Some? ==> m.value == TranscriptMetadata(ts[0].value.temporaryDownloadUrl, ts[0].value.displayName,
                                                    ts[0].value.languageTag))
  {
  }

  // ---------------------------------------------------------------------------
  // the wrapper
  // ---------------------------------------------------------------------------

  /** What one wrapped call returns and posts. The manifest message is
      posted before the call returns, the metadata message only after the
      cloned body has been read, so it comes last. */
  datatype Observation<R> = Observation(response: R, posted: seq<PageMessage>)

  /** The wrapped `fetch` for argument `arg`, the original response
      `response` and `body`, what `clone().json()` yields for it. */
  function Observe<R>(arg: FetchArg, response: R, body: Option<MetadataBody>): Observation<R>
  {
    var manifest := if IsManifestUrl(arg) then [VideoManifestUrl(TruncateManifest(arg.s))] else [];
    var metadata :=
      if IsTranscriptMetadataUrl(arg) && FirstTranscript(body).Some?
      then [FirstTranscript(body).value] else [];
    Observation(response, manifest + metadata)
  }

  /** The caller always gets the original response back; a manifest URL
      always posts its truncation; the metadata URL posts exactly when the
      body lists a transcript whose first element is not `null`; nothing
      else is posted. */
  lemma ObserveSpec<R>(arg: FetchArg, response: R, body: Option<MetadataBody>)
    ensures var o := Observe(arg, response, body);
      o.response == response
      && |o.posted| <= 2
      && (forall m :: m in o.posted && m.VideoManifestUrl? ==>
            IsManifestUrl(arg) && m.manifestUrl == TruncateManifest(arg.s))
      && (forall m :: m in o.posted && m.TranscriptMetadata? ==>
            IsTranscriptMetadataUrl(arg) && Some(m) == FirstTranscript(body))
      && (IsManifestUrl(arg) <==> exists m :: m in o.posted && m.VideoManifestUrl?)
      && (IsTranscriptMetadataUrl(arg) && ReadableFirst(body) <==>
            exists m :: m in o.posted && m.TranscriptMetadata?)
  {
    FirstTranscriptSpec(body);
    var o := Observe(arg, response, body);
    if IsManifestUrl(arg) {
      assert o.posted[0] == VideoManifestUrl(TruncateManifest(arg.s));
    }
    if IsTranscriptMetadataUrl(arg) && ReadableFirst(body) {
      assert o.posted[|o.posted| - 1] == FirstTranscript(body).value;
    }
  }

  /** The two tests are independent: a URL passing both posts both
      messages, the manifest first. */
  lemma BothMessages<R>(url: string, response: R, body: Option<MetadataBody>)
    requires IsTranscriptMetadataUrl(UrlString(url)) && IsManifestUrl(UrlString(url))
    requires ReadableFirst(body)
    ensures Observe(UrlString(url), response, body).posted ==
      [VideoManifestUrl(TruncateManifest(url)),
       TranscriptMetadata(ListedTranscripts(body)[0].value.temporaryDownloadUrl,
                          ListedTranscripts(body)[0].value.displayName,
                          ListedTranscripts(body)[0].value.languageTag)]
  {
    FirstTranscriptSpec(body);
  }

  /** A `null` first transcript posts nothing on the metadata call, even
      when later elements are readable: the field read throws and the
      `.catch` swallows the error. */
  lemma NullFirstTranscript<R>(url: string, response: R, rest: seq<Option<TranscriptInfo>>)
    requires !IsManifestUrl(UrlString(url))
    ensures Observe(UrlString(url), response, Some(MetadataBody(Some(Media(Some([None] + rest)))))).posted == []
  {
  }

  /** A non-string argument passes through without any message. */
  lemma NonStringPassesThrough<R>(response: R, body: Option<MetadataBody>)
    ensures Observe(NonString, response, body) == Observation(response, [])
  {
  }

  // ---------------------------------------------------------------------------
  // end to end: the content script's slots
  // ---------------------------------------------------------------------------

  /** A posted message as the content script's listener receives it. */
  function Delivered(m: PageMessage): Relay.MessageEvent
  {
    match m
    case TranscriptMetadata(url, _, _) =>
      Relay.MessageEvent(true, Relay.MessageData(Relay.TranscriptMetadataType, url, None))
    case VideoManifestUrl(url) =>
      Relay.MessageEvent(true, Relay.MessageData(Relay.VideoManifestUrlType, None, Some(url)))
  }

  function DeliverAll(ms: seq<PageMessage>): (evs: seq<Relay.MessageEvent>)
    ensures |evs| == |ms|
    ensures forall k :: 0 <= k < |ms| ==> evs[k] == Delivered(ms[k])
  {
    if ms == [] then [] else [Delivered(ms[0])] + DeliverAll(ms[1..])
  }

  /** After one intercepted call, the content script holds the truncated
      manifest URL if the call was a manifest request, and the first
      transcript's download URL if it was the metadata call listing a
      transcript that is not `null`; each slot is otherwise as before. */
  lemma ObserveThenRelay<R>(st: Relay.RelayState, arg: FetchArg, response: R, body: Option<MetadataBody>)
    ensures var after := Relay.Replay(st, DeliverAll(Observe(arg, response, body).posted));
      after.videoManifestUrl == (if IsManifestUrl(arg) then Some(TruncateManifest(arg.s)) else st.videoManifestUrl)
      && after.transcriptUrl ==
           (if IsTranscriptMetadataUrl(arg) && ReadableFirst(body)
            then ListedTranscripts(body)[0].value.temporaryDownloadUrl
            else st.transcriptUrl)
  {
    FirstTranscriptSpec(body);
    var posted := Observe(arg, response, body).posted;
    var manifest := if IsManifestUrl(arg) then [Delivered(VideoManifestUrl(TruncateManifest(arg.s)))] else [];
    var metadata := if IsTranscriptMetadataUrl(arg) && FirstTranscript(body).Some?
      then [Delivered(FirstTranscript(body).value)] else [];
    assert DeliverAll(posted) == manifest + metadata;
    Relay.ReplayAppend(st, manifest, metadata);
  }
}

=== FILE: relay.dfy ===
/** The content script's `message` listener: the page-world interceptor
    posts what it captured to the window, and the listener keeps the last
    transcript URL and the last video manifest URL in two slots, forwarding
    each to the background script when the extension runtime is there. */
module Relay {
  import opened Wrappers

  const TranscriptMetadataType: string := "TRANSCRIPT_METADATA"
  const VideoManifestUrlType: string := "VIDEO_MANIFEST_URL"

  /** The two slots the listener writes. `None` is the initial `null` (or an
      `undefined` field copied from a message). */
  datatype RelayState = RelayState(transcriptUrl: Option<string>, videoManifestUrl: Option<string>)

  const InitialState := RelayState(None, None)

  /** The fields of `event.data` the listener reads. */
  datatype MessageData = MessageData(kind: string, temporaryDownloadUrl: Option<string>, manifestUrl: Option<string>)

  /** A `message` event; `fromWindow` is `event.source === window`. */
  datatype MessageEvent = MessageEvent(fromWindow: bool, data: MessageData)

  /** The `chrome.runtime.sendMessage` payloads. */
  datatype BackgroundMessage =
    | SetTranscriptMetadata(temporaryDownloadUrl: Option<string>)
    | SetVideoManifestUrl(manifestUrl: Option<string>)

  /** The slots after the event and the messages sent to the background, in
      order. */
  datatype Handled = Handled(state: RelayState, sent: seq<BackgroundMessage>)

  /** One run of the listener. `runtimeAvailable` is `chrome && chrome.runtime`. */
  function OnMessage(st: RelayState, ev: MessageEvent, runtimeAvailable: bool): Handled
  {
    if !ev.fromWindow then Handled(st, [])
    else if ev.data.kind == TranscriptMetadataType then
      Handled(st.(transcriptUrl := ev.data.temporaryDownloadUrl),
              if runtimeAvailable then [SetTranscriptMetadata(ev.data.temporaryDownloadUrl)] else [])
    else if ev.data.kind == VideoManifestUrlType then
      Handled(st.(videoManifestUrl := ev.data.manifestUrl),
              if runtimeAvailable then [SetVideoManifestUrl(ev.data.manifestUrl)] else [])
    else Handled(st, [])
  }

  predicate IsMetadataEvent(ev: MessageEvent)
  {
    ev.fromWindow && ev.data.kind == TranscriptMetadataType
  }

  predicate IsManifestEvent(ev: MessageEvent)
  {
    ev.fromWindow && ev.data.kind == VideoManifestUrlType
  }

  /** Each event touches at most one slot: a metadata event only
      `transcriptUrl`, a manifest event only `videoManifestUrl`, and any
      other event (from another source, or of another type) neither; what is
      forwarded is exactly the value written, and only with the runtime. */
  lemma OnMessageSlots(st: RelayState, ev: MessageEvent, runtimeAvailable: bool)
    ensures var h := OnMessage(st, ev, runtimeAvailable);
      h.state.transcriptUrl == (if IsMetadataEvent(ev) then ev.data.temporaryDownloadUrl else st.transcriptUrl)
      && h.state.videoManifestUrl == (if IsManifestEvent(ev) then ev.data.manifestUrl else st.videoManifestUrl)
      && (h.sent != [] <==> runtimeAvailable && (IsMetadataEvent(ev) || IsManifestEvent(ev)))
      && (IsMetadataEvent(ev) && runtimeAvailable ==> h.sent == [SetTranscriptMetadata(h.state.transcriptUrl)])
      && (IsManifestEvent(ev) && runtimeAvailable ==> h.sent == [SetVideoManifestUrl(h.state.videoManifestUrl)])
  {
  }

  /** A message that is not from the window, or whose type is neither of the
      two, leaves both slots as they were and forwards nothing. */
  lemma IgnoredEvent(st: RelayState, ev: MessageEvent, runtimeAvailable: bool)
    requires !ev.fromWindow || (ev.data.kind != TranscriptMetadataType && ev.data.kind != VideoManifestUrlType)
    ensures OnMessage(st, ev, runtimeAvailable) == Handled(st, [])
  {
  }

  /** The slots after a sequence of events, in arrival order. */
  function Replay(st: RelayState, evs: seq<MessageEvent>): RelayState
    decreases |evs|
  {
    if evs == [] then st
    else OnMessage(Replay(st, evs[..|evs| - 1]), evs[|evs| - 1], false).state
  }

  /** Whether the runtime is there makes no difference to the slots. */
  lemma SlotsIgnoreRuntime(st: RelayState, ev: MessageEvent)
    ensures OnMessage(st, ev, true).state == OnMessage(st, ev, false).state
  {
  }

  /** Last write wins for the transcript slot: after a sequence of events it
      holds the URL of the last metadata event from the window, or its
      initial value when there was none. */
  lemma {:induction false} ReplayTranscriptUrl(st: RelayState, evs: seq<MessageEvent>)
    ensures (forall j :: 0 <= j < |evs| ==> !IsMetadataEvent(evs[j])) ==>
      Replay(st, evs).transcriptUrl == st.transcriptUrl
    ensures forall j :: 0 <= j < |evs| && IsMetadataEvent(evs[j])
                        && (forall k :: j < k < |evs| ==> !IsMetadataEvent(evs[k])) ==>
      Replay(st, evs).transcriptUrl == evs[j].data.temporaryDownloadUrl
    decreases |evs|
  {
    if evs != [] {
      var n := |evs| - 1;
      var init := evs[..n];
      ReplayTranscriptUrl(st, init);
      OnMessageSlots(Replay(st, init), evs[n], false);
      forall j | 0 <= j < n && IsMetadataEvent(evs[j]) && (forall k :: j < k < |evs| ==> !IsMetadataEvent(evs[k]))
        ensures Replay(st, evs).transcriptUrl == evs[j].data.temporaryDownloadUrl
      {
        assert init[j] == evs[j];
        assert forall k :: j < k < |init| ==> init[k] == evs[k];
      }
      if forall j :: 0 <= j < |evs| ==> !IsMetadataEvent(evs[j]) {
        assert forall j :: 0 <= j < |init| ==> init[j] == evs[j];
      }
    }
  }

  /** Last write wins for the manifest slot, in the same sense. */
  lemma {:induction false} ReplayManifestUrl(st: RelayState, evs: seq<MessageEvent>)
    ensures (forall j :: 0 <= j < |evs| ==> !IsManifestEvent(evs[j])) ==>
      Replay(st, evs).videoManifestUrl == st.videoManifestUrl
    ensures forall j :: 0 <= j < |evs| && IsManifestEvent(evs[j])
                        && (forall k :: j < k < |evs| ==> !IsManifestEvent(evs[k])) ==>
      Replay(st, evs).videoManifestUrl == evs[j].data.manifestUrl
    decreases |evs|
  {
    if evs != [] {
      var n := |evs| - 1;
      var init := evs[..n];
      ReplayManifestUrl(st, init);
      OnMessageSlots(Replay(st, init), evs[n], false);
      forall j | 0 <= j < n && IsManifestEvent(evs[j]) && (forall k :: j < k < |evs| ==> !IsManifestEvent(evs[k]))
        ensures Replay(st, evs).videoManifestUrl == evs[j].data.manifestUrl
      {
        assert init[j] == evs[j];
        assert forall k :: j < k < |init| ==> init[k] == evs[k];
      }
      if forall j :: 0 <= j < |evs| ==> !IsManifestEvent(evs[j]) {
        assert forall j :: 0 <= j < |init| ==> init[j] == evs[j];
      }
    }
  }

  /** A metadata event and a manifest event write different slots, so the
      order in which they arrive does not matter. */
  lemma MetadataAndManifestCommute(st: RelayState, a: MessageEvent, b: MessageEvent)
    requires IsMetadataEvent(a) && IsManifestEvent(b)
    ensures Replay(st, [a, b]) == Replay(st, [b, a])
  {
    assert [a, b][..1] == [a];
    assert [b, a][..1] == [b];
    OnMessageSlots(st, a, false);
    OnMessageSlots(st, b, false);
    OnMessageSlots(OnMessage(st, a, false).state, b, false);
    OnMessageSlots(OnMessage(st, b, false).state, a, false);
  }

  /** Replaying a concatenation replays the second part on the result of
      the first. */
  lemma {:induction false} ReplayAppend(st: RelayState, a: seq<MessageEvent>, b: seq<MessageEvent>)
    ensures Replay(st, a + b) == Replay(Replay(st, a), b)
    decreases |b|
  {
    if b == [] {
      assert a + b == a;
    } else {
      var n := |b| - 1;
      assert (a + b)[..|a + b| - 1] == a + b[..n];
      ReplayAppend(st, a, b[..n]);
    }
  }
}

=== FILE: strings.dfy ===
/** The JavaScript string primitives the extension relies on, over `seq<char>`:
    digit rendering and reading, `padStart`, `split`, `join`, `indexOf`,
    `lastIndexOf`, `trim`, `toLowerCase` and the `\s` character class. */
module Strings {

  predicate IsDigit(c: char) { '0' <= c <= '9' }

  predicate IsAsciiLetter(c: char) { 'a' <= c <= 'z' || 'A' <= c <= 'Z' }

  predicate IsAsciiUpper(c: char) { 'A' <= c <= 'Z' }

  /** The code points ECMAScript's `\s` matches and `String.prototype.trim`
      strips: the WhiteSpace and LineTerminator productions. */
  predicate IsWhitespace(c: char) {
    || c == '\t' || c == '\n' || c == '\U{000B}' || c == '\U{000C}' || c == '\r'
    || c == ' ' || c == '\U{00A0}' || c == '\U{1680}' || '\U{2000}' <= c <= '\U{200A}'
    || c == '\U{2028}' || c == '\U{2029}' || c == '\U{202F}' || c == '\U{205F}'
    || c == '\U{3000}' || c == '\U{FEFF}'
  }

  predicate AllDigits(s: string) { forall i :: 0 <= i < |s| ==> IsDigit(s[i]) }

  predicate AllWhitespace(s: string) { forall i :: 0 <= i < |s| ==> IsWhitespace(s[i]) }

  predicate AllZeros(s: string) { forall i :: 0 <= i < |s| ==> s[i] == '0' }

  // ---------------------------------------------------------------------------
  // Decimal numerals
  // ---------------------------------------------------------------------------

  function DigitChar(d: nat): (c: char)
    requires d < 10
    ensures IsDigit(c) && c as int - '0' as int == d
  {
    ('0' as int + d) as char
  }

  function DigitValue(c: char): nat
    requires IsDigit(c)
  {
    c as int - '0' as int
  }

  /** The value of a string of ASCII digits read in base ten; leading zeros
      are allowed, as `parseInt` allows them. */
  function DigitsValue(s: string): nat
    requires AllDigits(s)
    decreases |s|
  {
    if s == [] then 0 else 10 * DigitsValue(s[..|s| - 1]) + DigitValue(s[|s| - 1])
  }

  /** `Number.prototype.toString()` of a non-negative integer: its shortest
      base-ten numeral. */
  function NatToString(n: nat): (s: string)
    ensures 1 <= |s| && AllDigits(s)
    ensures DigitsValue(s) == n
    ensures |s| > 1 ==> s[0] != '0'
    ensures n > 0 ==> s[0] != '0'
    ensures n < 10 ==> |s| == 1
    ensures n < 100 ==> |s| <= 2
    ensures n < 1000 ==> |s| <= 3
    decreases n
  {
    if n < 10 then [DigitChar(n)]
    else
      var s := NatToString(n / 10) + [DigitChar(n % 10)];
      assert s[..|s| - 1] == NatToString(n / 10);
      s
  }

  /** `Number.prototype.toString()` of an integer: a `-` before the numeral
      of a negative value. */
  function IntToString(n: int): (s: string)
    ensures n < 0 ==> |s| > 1 && s[0] == '-' && AllDigits(s[1..]) && DigitsValue(s[1..]) == -n && s[1] != '0'
    ensures n >= 0 ==> |s| >= 1 && AllDigits(s) && DigitsValue(s) == n && (|s| > 1 ==> s[0] != '0')
  {
    if n < 0 then
      var s := "-" + NatToString(-n);
      assert s[1..] == NatToString(-n);
      s
    else NatToString(n)
  }

  /** A numeral whose first digit is not `0` has a positive value. */
  lemma {:induction false} LeadingDigitPositive(s: string)
    requires |s| >= 1 && AllDigits(s) && s[0] != '0'
    ensures DigitsValue(s) >= 1
    decreases |s|
  {
    if |s| > 1 {
      LeadingDigitPositive(s[..|s| - 1]);
    }
  }

  /** The numeral `NatToString` prints is the only digit string without a
      leading zero that denotes its value: such a string is always exactly
      what `Number.prototype.toString()` prints for it. */
  lemma {:induction false} CanonicalNumeral(s: string)
    requires |s| >= 1 && AllDigits(s) && (|s| > 1 ==> s[0] != '0')
    ensures s == NatToString(DigitsValue(s))
    decreases |s|
  {
    var n := DigitsValue(s);
    if |s| == 1 {
      assert s[..0] == [] && n == DigitValue(s[0]);
      assert DigitChar(n) == s[0];
    } else {
      var p := s[..|s| - 1];
      LeadingDigitPositive(p);
      CanonicalNumeral(p);
      assert n / 10 == DigitsValue(p) && n % 10 == DigitValue(s[|s| - 1]);
      assert DigitChar(n % 10) == s[|s| - 1];
      assert s == p + [s[|s| - 1]];
    }
  }

  /** A run of zeros reads as zero. */
  lemma {:induction false} ZerosValue(z: string)
    requires AllZeros(z)
    ensures AllDigits(z) && DigitsValue(z) == 0
    decreases |z|
  {
    if z != [] {
      ZerosValue(z[..|z| - 1]);
    }
  }

  /** Leading zeros do not change the value of a numeral. */
  lemma {:induction false} LeadingZerosValue(z: string, s: string)
    requires AllZeros(z) && AllDigits(s)
    ensures AllDigits(z + s) && DigitsValue(z + s) == DigitsValue(s)
    decreases |s|
  {
    if s == [] {
      assert z + s == z;
      ZerosValue(z);
    } else {
      assert (z + s)[..|z + s| - 1] == z + s[..|s| - 1];
      LeadingZerosValue(z, s[..|s| - 1]);
    }
  }

  /** `String.prototype.padStart(width, c)`: `s` preceded by as many copies of
      `c` as bring it to `width` characters; never shortens `s`. */
  function PadStart(s: string, width: nat, c: char): (r: string)
    ensures |r| == if |s| >= width then |s| else width
    ensures r[|r| - |s|..] == s
    ensures forall i :: 0 <= i < |r| - |s| ==> r[i] == c
  {
    if |s| >= width then s else seq(width - |s|, _ => c) + s
  }

  /** Zero-padding a numeral keeps it a numeral of the same value. */
  lemma ZeroPadValue(s: string, width: nat)
    requires AllDigits(s)
    ensures AllDigits(PadStart(s, width, '0'))
    ensures DigitsValue(PadStart(s, width, '0')) == DigitsValue(s)
  {
    var r := PadStart(s, width, '0');
    var z := r[..|r| - |s|];
    assert r == z + s;
    LeadingZerosValue(z, s);
  }

  /** A numeral of exactly `width` digits is the zero-padded numeral of its
      value: `toString().padStart(width, '0')` prints it and nothing else. */
  lemma {:induction false} PaddedNumeral(x: string, width: nat)
    requires |x| == width >= 1 && AllDigits(x)
    ensures PadStart(NatToString(DigitsValue(x)), width, '0') == x
    decreases width
  {
    if width == 1 || x[0] != '0' {
      CanonicalNumeral(x);
    } else {
      var t := x[1..];
      assert x == ['0'] + t;
      PaddedNumeral(t, width - 1);
      LeadingZerosValue(['0'], t);
      PadStartOneMore(NatToString(DigitsValue(t)), width - 1, '0');
    }
  }

  /** Padding to one more character puts one more fill character in front. */
  lemma PadStartOneMore(s: string, width: nat, c: char)
    requires |s| <= width
    ensures PadStart(s, width + 1, c) == [c] + PadStart(s, width, c)
  {
    assert seq(width + 1 - |s|, _ => c) == [c] + seq(width - |s|, _ => c);
  }

  // ---------------------------------------------------------------------------
  // split / join
  // ---------------------------------------------------------------------------

  /** `Array.prototype.join(sep)`. */
  function JoinWith(parts: seq<string>, sep: string): string
  {
    if parts == [] then ""
    else if |parts| == 1 then parts[0]
    else parts[0] + sep + JoinWith(parts[1..], sep)
  }

  /** `String.prototype.split` on a one-character separator: the maximal
      separator-free fields, in order; the empty string splits into one empty
      field. */
  function Split(s: string, sep: char): seq<string>
    decreases |s|
  {
    if s == [] then [""]
    else
      var rest := Split(s[1..], sep);
      if s[0] == sep then [""] + rest
      // `rest` is never empty (SplitSpec); the guards only keep this total
      else [[s[0]] + (if rest == [] then "" else rest[0])] + (if rest == [] then [] else rest[1..])
  }

  /** `split` returns at least one field, no field contains the separator,
      and joining the fields with the separator gives back the string. */
  lemma {:induction false} SplitSpec(s: string, sep: char)
    ensures |Split(s, sep)| >= 1
    ensures forall i :: 0 <= i < |Split(s, sep)| ==> sep !in Split(s, sep)[i]
    ensures JoinWith(Split(s, sep), [sep]) == s
    decreases |s|
  {
    if s != [] {
      SplitSpec(s[1..], sep);
      var rest := Split(s[1..], sep);
      assert s == [s[0]] + s[1..];
      if s[0] == sep {
        assert JoinWith([""] + rest, [sep]) == [sep] + JoinWith(rest, [sep]);
      } else {
        var parts := [[s[0]] + rest[0]] + rest[1..];
        assert parts[1..] == rest[1..];
        assert Split(s, sep) == parts;
      }
    }
  }

  lemma {:induction false} SplitNoSeparator(a: string, sep: char)
    requires sep !in a
    ensures Split(a, sep) == [a]
    decreases |a|
  {
    if a != [] {
      SplitNoSeparator(a[1..], sep);
      assert a == [a[0]] + a[1..];
    }
  }

  lemma {:induction false} SplitAfterField(a: string, sep: char, b: string)
    requires sep !in a
    ensures Split(a + [sep] + b, sep) == [a] + Split(b, sep)
    decreases |a|
  {
    var s := a + [sep] + b;
    if a == [] {
      assert s[1..] == b;
    } else {
      assert s[1..] == a[1..] + [sep] + b;
      SplitAfterField(a[1..], sep, b);
      assert a == [a[0]] + a[1..];
    }
  }

  /** Three separator-free fields, each followed by the separator, split
      off in order in front of the split of what follows. */
  lemma SplitThreeFields(a: string, b: string, c: string, sep: char, rest: string)
    requires sep !in a && sep !in b && sep !in c
    ensures Split(a + [sep] + (b + [sep] + (c + [sep] + rest)), sep) == [a, b, c] + Split(rest, sep)
  {
    var tail := Split(rest, sep);
    var t2 := c + [sep] + rest;
    var t1 := b + [sep] + t2;
    SplitAfterField(c, sep, rest);
    SplitAfterField(b, sep, t2);
    assert [b] + ([c] + tail) == [b, c] + tail;
    SplitAfterField(a, sep, t1);
    assert [a] + ([b, c] + tail) == [a, b, c] + tail;
  }

  /** `split` undoes `join` whenever no field contains the separator. */
  lemma {:induction false} SplitJoin(parts: seq<string>, sep: char)
    requires |parts| >= 1
    requires forall i :: 0 <= i < |parts| ==> sep !in parts[i]
    ensures Split(JoinWith(parts, [sep]), sep) == parts
    decreases |parts|
  {
    if |parts| == 1 {
      SplitNoSeparator(parts[0], sep);
    } else {
      SplitJoin(parts[1..], sep);
      SplitAfterField(parts[0], sep, JoinWith(parts[1..], [sep]));
      assert parts == [parts[0]] + parts[1..];
    }
  }

  // ---------------------------------------------------------------------------
  // indexOf / includes / lastIndexOf
  // ---------------------------------------------------------------------------

  predicate OccursAt(s: string, sub: string, i: int) {
    0 <= i && i + |sub| <= |s| && s[i..i + |sub|] == sub
  }

  ghost predicate Contains(s: string, sub: string) {
    exists i :: OccursAt(s, sub, i)
  }

  function IndexOfFrom(s: string, sub: string, k: nat): (r: int)
    ensures r == -1 ==> forall i :: k <= i ==> !OccursAt(s, sub, i)
    ensures r != -1 ==> k <= r && OccursAt(s, sub, r)
    ensures r != -1 ==> forall i :: k <= i < r ==> !OccursAt(s, sub, i)
    decreases |s| + 1 - k
  {
    if k > |s| then -1
    else if OccursAt(s, sub, k) then k
    else IndexOfFrom(s, sub, k + 1)
  }

  /** `String.prototype.indexOf(sub)`: the first index at which `sub` occurs,
      or -1 when it occurs nowhere. */
  function IndexOf(s: string, sub: string): (r: int)
    ensures r == -1 <==> !Contains(s, sub)
    ensures r != -1 ==> OccursAt(s, sub, r)
    ensures r != -1 ==> forall i :: 0 <= i < r ==> !OccursAt(s, sub, i)
  {
    IndexOfFrom(s, sub, 0)
  }

  /** `String.prototype.includes(sub)`. */
  function Includes(s: string, sub: string): (b: bool)
    ensures b <==> Contains(s, sub)
  {
    IndexOf(s, sub) != -1
  }

  /** `String.prototype.indexOf(c)` for one character: the first index
      holding `c`, or -1. */
  function IndexOfChar(s: string, c: char): (r: int)
    ensures r == -1 <==> c !in s
    ensures r != -1 ==> 0 <= r < |s| && s[r] == c && c !in s[..r]
    decreases |s|
  {
    if s == [] then -1
    else if s[0] == c then 0
    else
      var r := IndexOfChar(s[1..], c);
      assert s == [s[0]] + s[1..];
      assert r != -1 ==> s[..r + 1] == [s[0]] + s[1..][..r];
      if r == -1 then -1 else r + 1
  }

  /** The first occurrence is the one with no earlier occurrence. */
  lemma IndexOfCharAt(s: string, c: char, k: nat)
    requires k < |s| && s[k] == c && c !in s[..k]
    ensures IndexOfChar(s, c) == k
  {
    assert s[k] in s;
  }

  /** `String.prototype.lastIndexOf(c)` for one character: the last index
      holding `c`, or -1. */
  function LastIndexOf(s: string, c: char): (r: int)
    ensures r == -1 <==> c !in s
    ensures r != -1 ==> 0 <= r < |s| && s[r] == c && c !in s[r + 1..]
    decreases |s|
  {
    if s == [] then -1
    else if s[|s| - 1] == c then |s| - 1
    else
      var r := LastIndexOf(s[..|s| - 1], c);
      assert s == s[..|s| - 1] + [s[|s| - 1]];
      assert r != -1 ==> s[r + 1..] == s[..|s| - 1][r + 1..] + [s[|s| - 1]];
      r
  }

  /** `String.prototype.substring(start)` for a start in `-1..|s|`: a negative
      start is clamped to 0. */
  function SubstringFrom(s: string, start: int): string
    requires start <= |s|
  {
    if start < 0 then s else s[start..]
  }

  // ---------------------------------------------------------------------------
  // trim / toLowerCase
  // ---------------------------------------------------------------------------

  function TrimStart(s: string): string
    decreases |s|
  {
    if s != [] && IsWhitespace(s[0]) then TrimStart(s[1..]) else s
  }

  function TrimEnd(s: string): string
    decreases |s|
  {
    if s != [] && IsWhitespace(s[|s| - 1]) then TrimEnd(s[..|s| - 1]) else s
  }

  /** `trimStart` removes exactly the leading run of whitespace. */
  lemma {:induction false} TrimStartSpec(s: string)
    ensures var r := TrimStart(s);
      && |r| <= |s| && r == s[|s| - |r|..]
      && AllWhitespace(s[..|s| - |r|])
      && (r == [] || !IsWhitespace(r[0]))
    decreases |s|
  {
    if s != [] && IsWhitespace(s[0]) {
      TrimStartSpec(s[1..]);
      var r := TrimStart(s);
      assert s[1..][|s| - 1 - |r|..] == s[|s| - |r|..];
      assert s[..|s| - |r|] == [s[0]] + s[1..][..|s| - 1 - |r|];
    }
  }

  /** `trimEnd` removes exactly the trailing run of whitespace. */
  lemma {:induction false} TrimEndSpec(s: string)
    ensures var r := TrimEnd(s);
      && |r| <= |s| && r == s[..|r|]
      && AllWhitespace(s[|r|..])
      && (r == [] || !IsWhitespace(r[|r| - 1]))
    decreases |s|
  {
    if s != [] && IsWhitespace(s[|s| - 1]) {
      TrimEndSpec(s[..|s| - 1]);
      var r := TrimEnd(s);
      assert s[..|s| - 1][..|r|] == s[..|r|];
      assert s[|r|..] == s[..|s| - 1][|r|..] + [s[|s| - 1]];
    }
  }

  /** `String.prototype.trim()`: `s` with its leading and trailing whitespace
      removed. */
  function Trim(s: string): string
  {
    TrimEnd(TrimStart(s))
  }

  /** What `trim` leaves neither starts nor ends with whitespace, and it is
      `s` with only whitespace removed around it. */
  lemma TrimSpec(s: string)
    ensures var r := Trim(s);
      && (r == [] || (!IsWhitespace(r[0]) && !IsWhitespace(r[|r| - 1])))
      && exists lead, trail :: AllWhitespace(lead) && AllWhitespace(trail) && s == lead + r + trail
  {
    var t := TrimStart(s);
    var r := TrimEnd(t);
    TrimStartSpec(s);
    TrimEndSpec(t);
    var lead := s[..|s| - |t|];
    var trail := t[|r|..];
    assert s == lead + r + trail;
    if r != [] {
      assert r[0] == t[0];
    }
  }

  /** `toLowerCase` on a character that is an ASCII letter or not a letter at
      all (the only characters the extension lower-cases). */
  function ToLowerAscii(c: char): (d: char)
  {
    if IsAsciiUpper(c) then (c as int + 32) as char else c
  }

  // ---------------------------------------------------------------------------
  // UTF-16 code units
  // ---------------------------------------------------------------------------

  /** A JavaScript string is a sequence of UTF-16 code units: a character
      beyond the Basic Multilingual Plane is a surrogate pair of two code
      units, any other character is one. */
  function CodeUnits(c: char): nat
  {
    if c as int > 0xFFFF then 2 else 1
  }

  /** The JavaScript `length` of `s`. */
  function Utf16Length(s: string): nat
    decreases |s|
  {
    if s == [] then 0 else CodeUnits(s[0]) + Utf16Length(s[1..])
  }

  lemma {:induction false} Utf16LengthAppend(a: string, b: string)
    ensures Utf16Length(a + b) == Utf16Length(a) + Utf16Length(b)
    decreases |a|
  {
    if a == [] {
      assert a + b == b;
    } else {
      assert (a + b)[0] == a[0];
      assert (a + b)[1..] == a[1..] + b;
      Utf16LengthAppend(a[1..], b);
    }
  }

  /** The middle piece of a three-part concatenation starts where the first
      piece ends. */
  lemma MiddlePiece(a: string, m: string, z: string)
    ensures (a + m + z)[|a|..|a| + |m|] == m
  {
  }

  /** What a replacement by `_` writes for a character when the pattern has
      no `u` flag: the pattern matches each code unit on its own, so a
      surrogate pair becomes two underscores. */
  function Underscores(c: char): (r: string)
    ensures |r| == CodeUnits(c)
    ensures forall i :: 0 <= i < |r| ==> r[i] == '_'
  {
    if c as int > 0xFFFF then "__" else "_"
  }
}

=== FILE: timestamp.dfy ===
/** The timestamp codec of the content script (`timeToSeconds` and
    `secondsToVTT`), with time measured in whole milliseconds. */
module Timestamp {
  import opened Wrappers
  import opened Strings

  const MsPerSecond := 1000
  const MsPerMinute := 60000
  const MsPerHour := 3600000

  /** What the encoder prints for NaN: `Math.floor(NaN)` renders as "NaN",
      which `padStart(2, '0')` leaves as it is, and `NaN.toFixed(3)` padded to
      six characters becomes "000NaN". */
  const NaNClock: string := "NaN:NaN:000NaN"

  function Pow10(k: nat): (p: nat)
    ensures p >= 1
  {
    if k == 0 then 1 else 10 * Pow10(k - 1)
  }

  /** `parseInt` of an hours or minutes field in the well-formed case (one or
      more ASCII digits); anything else reads as NaN. */
  function ParseField(s: string): Option<nat>
  {
    if |s| > 0 && AllDigits(s) then Some(DigitsValue(s)) else None
  }

  /** The fraction `0.f` of a second in milliseconds, rounded to the nearest
      millisecond with ties upward, as `Math.round(x * 1000)` does. */
  function FractionMillis(f: string): nat
    requires AllDigits(f)
  {
    var x, p := 2000 * DigitsValue(f), Pow10(|f|);
    assert (x + p) / (2 * p) >= 0;
    (x + p) / (2 * p)
  }

  /** A seconds field `W.F` in milliseconds: the whole seconds plus the
      fraction rounded to the millisecond. */
  function SecondsReading(W: string, F: string): nat
    requires AllDigits(W) && AllDigits(F)
  {
    DigitsValue(W) * MsPerSecond + FractionMillis(F)
  }

  /** The rounded value is the nearest whole millisecond to `0.f` seconds:
      within half a millisecond, and a tie goes up. */
  lemma FractionMillisNearest(f: string)
    requires AllDigits(f)
    ensures var ms := FractionMillis(f);
      && (2 * ms - 1) * Pow10(|f|) <= 2000 * DigitsValue(f)
      && 2000 * DigitsValue(f) < (2 * ms + 1) * Pow10(|f|)
  {
    RoundHalfUp(2000 * DigitsValue(f), Pow10(|f|));
  }

  lemma RoundHalfUp(x: nat, p: nat)
    requires p >= 1
    ensures var q := (x + p) / (2 * p); (2 * q - 1) * p <= x < (2 * q + 1) * p
  {
    var d := 2 * p;
    var q := (x + p) / d;
    var r := (x + p) % d;
    assert x + p == d * q + r && 0 <= r < d;
    assert (2 * q - 1) * p == d * q - p;
    assert (2 * q + 1) * p == d * q + p;
  }

  /** `parseFloat` of the seconds field in the well-formed case, in
      milliseconds: whole seconds, optionally followed by `.` and fraction
      digits. */
  function ParseSeconds(s: string): Option<nat>
  {
    var dot := IndexOfChar(s, '.');
    if dot == -1 then
      if |s| > 0 && AllDigits(s) then Some(DigitsValue(s) * MsPerSecond) else None
    else
      var whole := s[..dot];
      var frac := s[dot + 1..];
      if |whole| > 0 && AllDigits(whole) && AllDigits(frac)
      then Some(SecondsReading(whole, frac))
      else None
  }

  /** `timeToSeconds`, in milliseconds: the clock is split on `:` and its
      fields are read by `DecodeFields`; `None` is NaN. */
  function Decode(t: string): Option<nat>
  {
    DecodeFields(Split(t, ':'))
  }

  /** The first three fields read as hours, minutes and seconds (further
      fields are ignored, as array destructuring ignores them); fewer than
      three fields, or any of the three unreadable, is NaN. */
  function DecodeFields(fields: seq<string>): Option<nat>
  {
    if |fields| < 3 then None
    else
      var h, m, s := ParseField(fields[0]), ParseField(fields[1]), ParseSeconds(fields[2]);
      if h.Some? && m.Some? && s.Some? then Some(h.value * MsPerHour + m.value * MsPerMinute + s.value)
      else None
  }

  /** The canonical clock layout `HH:MM:SS.mmm`: an hours field of at least
      two digits, two-digit minutes and seconds below 60, and exactly three
      millisecond digits. */
  predicate IsCanonicalClock(c: string) {
    && |c| >= 12
    && AllDigits(c[..|c| - 10]) && c[|c| - 10] == ':'
    && AllDigits(c[|c| - 9..|c| - 7]) && c[|c| - 7] == ':'
    && AllDigits(c[|c| - 6..|c| - 4]) && c[|c| - 4] == '.'
    && AllDigits(c[|c| - 3..])
    && DigitsValue(c[|c| - 9..|c| - 7]) < 60
    && DigitsValue(c[|c| - 6..|c| - 4]) < 60
  }

  /** A canonical clock as `secondsToVTT` prints it: the hours field is
      `toString().padStart(2, '0')`, so it has exactly two digits below 100
      hours and no leading zero from 100 hours on. */
  predicate IsPrintedClock(c: string) {
    IsCanonicalClock(c) && (|c| == 12 || c[0] != '0')
  }

  /** The instant a canonical clock denotes, read field by field. */
  function ClockValue(c: string): nat
    requires IsCanonicalClock(c)
  {
    FieldsValue(c[..|c| - 10], c[|c| - 9..|c| - 7], c[|c| - 6..|c| - 4], c[|c| - 3..])
  }

  function FieldsValue(H: string, M: string, S: string, F: string): nat
    requires AllDigits(H) && AllDigits(M) && AllDigits(S) && AllDigits(F)
  {
    DigitsValue(H) * MsPerHour + DigitsValue(M) * MsPerMinute + DigitsValue(S) * MsPerSecond + DigitsValue(F)
  }

  function Pad2(n: nat): string { PadStart(NatToString(n), 2, '0') }

  function Pad3(n: nat): string { PadStart(NatToString(n), 3, '0') }

  /** `(seconds % 60).toFixed(3).padStart(6, '0')` for `sec` milliseconds
      within the minute. */
  function SecondsField(sec: nat): string
  {
    PadStart(NatToString(sec / MsPerSecond) + "." + Pad3(sec % MsPerSecond), 6, '0')
  }

  /** `secondsToVTT`, in milliseconds. The result is always a canonical clock
      that denotes exactly `ms`: the hours field grows past two digits rather
      than wrapping, and minutes and seconds stay below 60. */
  function Encode(ms: nat): string
  {
    Pad2(ms / MsPerHour) + ":" + Pad2((ms % MsPerHour) / MsPerMinute) + ":" + SecondsField(ms % MsPerMinute)
  }

  lemma EncodeCanonical(ms: nat)
    ensures IsPrintedClock(Encode(ms)) && ClockValue(Encode(ms)) == ms
  {
    EncodeClock(ms);
    EncodeHead(ms);
    HoursFieldPrinted(ms / MsPerHour);
  }

  /** The layout and the value of the printed clock. */
  lemma EncodeClock(ms: nat)
    ensures IsCanonicalClock(Encode(ms)) && ClockValue(Encode(ms)) == ms
  {
    var h, m, sec := ms / MsPerHour, (ms % MsPerHour) / MsPerMinute, ms % MsPerMinute;
    var s, milli := sec / MsPerSecond, sec % MsPerSecond;
    ModOfMod(ms);
    SecondsFieldLayout(s, milli);
    assert sec == s * MsPerSecond + milli;
    ZeroPadValue(NatToString(h), 2);
    ZeroPadValue(NatToString(m), 2);
    ZeroPadValue(NatToString(s), 2);
    ZeroPadValue(NatToString(milli), 3);
    AssembledClock(Pad2(h), Pad2(m), Pad2(s), Pad3(milli), SecondsField(sec));
  }

  /** The printed clock is its hours field followed by ten characters. */
  lemma EncodeHead(ms: nat)
    ensures |Encode(ms)| == |Pad2(ms / MsPerHour)| + 10 && Encode(ms)[0] == Pad2(ms / MsPerHour)[0]
  {
    var m, sec := (ms % MsPerHour) / MsPerMinute, ms % MsPerMinute;
    ModOfMod(ms);
    SecondsFieldLayout(sec / MsPerSecond, sec % MsPerSecond);
    assert sec == sec / MsPerSecond * MsPerSecond + sec % MsPerSecond;
    ClockHead(Pad2(ms / MsPerHour), Pad2(m), SecondsField(sec));
  }

  /** `toString().padStart(2, '0')` of the hours: two digits, or more with
      no leading zero. */
  lemma HoursFieldPrinted(h: nat)
    ensures |Pad2(h)| == 2 || (|Pad2(h)| > 2 && Pad2(h)[0] != '0')
  {
  }

  /** The length and the first character of a clock assembled from fields. */
  lemma ClockHead(H: string, M: string, SF: string)
    requires |H| >= 1 && |M| == 2 && |SF| == 6
    ensures var c := H + ":" + M + ":" + SF; |c| == |H| + 10 && c[0] == H[0]
  {
  }

  /** A numeral of `k` digits is below `10^k`. */
  lemma {:induction false} DigitsBelowPow10(s: string)
    requires AllDigits(s)
    ensures DigitsValue(s) < Pow10(|s|)
    decreases |s|
  {
    if s != [] {
      DigitsBelowPow10(s[..|s| - 1]);
    }
  }

  /** Fields within their ranges that denote the same instant are the same
      fields. */
  lemma FieldsValueInjective(h1: nat, m1: nat, s1: nat, f1: nat, h2: nat, m2: nat, s2: nat, f2: nat)
    requires m1 < 60 && s1 < 60 && f1 < 1000 && m2 < 60 && s2 < 60 && f2 < 1000
    requires h1 * MsPerHour + m1 * MsPerMinute + s1 * MsPerSecond + f1
          == h2 * MsPerHour + m2 * MsPerMinute + s2 * MsPerSecond + f2
    ensures h1 == h2 && m1 == m2 && s1 == s2 && f1 == f2
  {
    var ms := h1 * MsPerHour + m1 * MsPerMinute + s1 * MsPerSecond + f1;
    FieldsDivMod(ms, h1, m1, s1, f1);
    FieldsDivMod(ms, h2, m2, s2, f2);
    assert (s1 * 1000 + f1) / 1000 == s1 && (s2 * 1000 + f2) / 1000 == s2;
  }

  /** The divisions `Encode` performs recover the fields of an instant. */
  lemma FieldsDivMod(ms: nat, h: nat, m: nat, s: nat, f: nat)
    requires m < 60 && s < 60 && f < 1000
    requires ms == h * MsPerHour + m * MsPerMinute + s * MsPerSecond + f
    ensures ms / MsPerHour == h && (ms % MsPerHour) / MsPerMinute == m
    ensures ms % MsPerMinute == s * MsPerSecond + f
  {
    var sec := s * 1000 + f;
    var r := m * 60000 + sec;
    assert ms == h * 3600000 + r;
    assert ms / 3600000 == h && ms % 3600000 == r;
    assert r / 60000 == m;
    assert ms == (h * 60 + m) * 60000 + sec;
  }

  /** The text of a printed field is fixed by its value: a field of `w`
      digits is `toString().padStart(w, '0')` of its value, and so is a
      longer field with no leading zero. */
  lemma PrintedFieldText(x: string, w: nat)
    requires AllDigits(x) && w >= 1 && (|x| == w || (|x| > w && x[0] != '0'))
    ensures x == PadStart(NatToString(DigitsValue(x)), w, '0')
  {
    if |x| == w {
      PaddedNumeral(x, w);
    } else {
      CanonicalNumeral(x);
    }
  }

  /** The four fields of printed clocks (hours at least two digits with no
      leading zero beyond two, minutes and seconds two digits below 60,
      milliseconds three digits) are fixed by the instant they add up to. */
  lemma PrintedFieldsInjective(H1: string, M1: string, S1: string, F1: string,
                               H2: string, M2: string, S2: string, F2: string)
    requires AllDigits(H1) && AllDigits(M1) && AllDigits(S1) && AllDigits(F1)
    requires AllDigits(H2) && AllDigits(M2) && AllDigits(S2) && AllDigits(F2)
    requires |H1| == 2 || (|H1| > 2 && H1[0] != '0')
    requires |H2| == 2 || (|H2| > 2 && H2[0] != '0')
    requires |M1| == |M2| == |S1| == |S2| == 2 && |F1| == |F2| == 3
    requires DigitsValue(M1) < 60 && DigitsValue(S1) < 60
    requires DigitsValue(M2) < 60 && DigitsValue(S2) < 60
    requires FieldsValue(H1, M1, S1, F1) == FieldsValue(H2, M2, S2, F2)
    ensures H1 == H2 && M1 == M2 && S1 == S2 && F1 == F2
  {
    assert DigitsValue(F1) < 1000 && DigitsValue(F2) < 1000 by {
      DigitsBelowPow10(F1);
      DigitsBelowPow10(F2);
      assert Pow10(3) == 1000;
    }
    FieldsValueInjective(DigitsValue(H1), DigitsValue(M1), DigitsValue(S1), DigitsValue(F1),
                         DigitsValue(H2), DigitsValue(M2), DigitsValue(S2), DigitsValue(F2));
    PrintedFieldText(H1, 2);
    PrintedFieldText(H2, 2);
    PrintedFieldText(M1, 2);
    PrintedFieldText(M2, 2);
    PrintedFieldText(S1, 2);
    PrintedFieldText(S2, 2);
    PrintedFieldText(F1, 3);
    PrintedFieldText(F2, 3);
  }

  /** Two printed clocks that denote the same instant are the same text. */
  lemma PrintedClockInjective(c1: string, c2: string)
    requires IsPrintedClock(c1) && IsPrintedClock(c2) && ClockValue(c1) == ClockValue(c2)
    ensures c1 == c2
  {
    var n1, n2 := |c1|, |c2|;
    var H1, M1, S1, F1 := c1[..n1 - 10], c1[n1 - 9..n1 - 7], c1[n1 - 6..n1 - 4], c1[n1 - 3..];
    var H2, M2, S2, F2 := c2[..n2 - 10], c2[n2 - 9..n2 - 7], c2[n2 - 6..n2 - 4], c2[n2 - 3..];
    assert H1 == H2 && M1 == M2 && S1 == S2 && F1 == F2 by {
      assert |H1| > 2 ==> H1[0] == c1[0];
      assert |H2| > 2 ==> H2[0] == c2[0];
      PrintedFieldsInjective(H1, M1, S1, F1, H2, M2, S2, F2);
    }
    ClockFromFields(c1);
    ClockFromFields(c2);
  }

  /** `Encode` is the only way to print a clock: every printed clock is the
      encoding of the instant it denotes, so with `EncodeCanonical` the
      printed clocks are exactly the outputs of `Encode`. */
  lemma PrintedClockUnique(c: string)
    requires IsPrintedClock(c)
    ensures Encode(ClockValue(c)) == c
  {
    EncodeCanonical(ClockValue(c));
    PrintedClockInjective(Encode(ClockValue(c)), c);
  }

  /** Over-padded hours are canonical but never printed: `"001:02:03.500"`
      denotes the instant `Encode` prints as `"01:02:03.500"`. */
  lemma ExampleOverPaddedHours()
    ensures IsCanonicalClock("001:02:03.500") && !IsPrintedClock("001:02:03.500")
  {
    var c := "001:02:03.500";
    assert c[..3] == "001" && c[4..6] == "02" && c[7..9] == "03" && c[10..] == "500";
    TwoDigitsValue(c[4..6]);
    TwoDigitsValue(c[7..9]);
  }

  lemma TwoDigitsValue(x: string)
    requires |x| == 2 && AllDigits(x)
    ensures DigitsValue(x) == 10 * DigitValue(x[0]) + DigitValue(x[1])
  {
    assert x[..1][..0] == [] && x[..1][0] == x[0];
    assert DigitsValue(x[..1]) == DigitValue(x[0]);
  }

  /** A canonical clock is its four fields with their separators. */
  lemma ClockFromFields(c: string)
    requires IsCanonicalClock(c)
    ensures var n := |c|;
      c == c[..n - 10] + ":" + c[n - 9..n - 7] + ":" + c[n - 6..n - 4] + "." + c[n - 3..]
  {
    var n := |c|;
    var SF := c[n - 6..];
    ClockPieces(c, c[..n - 10], c[n - 9..n - 7], SF);
    assert SF[..2] == c[n - 6..n - 4] && SF[2] == '.' && SF[3..] == c[n - 3..];
    assert SF == SF[..2] + [SF[2]] + SF[3..];
  }

  /** `toFixed(3).padStart(6, '0')` of a seconds value below 60 is two
      second digits, a dot and three millisecond digits. */
  lemma SecondsFieldLayout(s: nat, milli: nat)
    requires s < 60 && milli < 1000
    ensures SecondsField(s * MsPerSecond + milli) == Pad2(s) + "." + Pad3(milli)
  {
    assert (s * MsPerSecond + milli) / MsPerSecond == s;
    assert (s * MsPerSecond + milli) % MsPerSecond == milli;
    var frac := "." + Pad3(milli);
    assert |frac| == 4;
    PadSecondsDigits(NatToString(s), frac);
    assert NatToString(s) + "." + Pad3(milli) == NatToString(s) + frac;
    assert Pad2(s) + "." + Pad3(milli) == Pad2(s) + frac;
  }

  /** Padding `x` followed by four characters to six pads `x` to two. */
  lemma PadSecondsDigits(x: string, rest: string)
    requires 1 <= |x| <= 2 && |rest| == 4
    ensures PadStart(x + rest, 6, '0') == PadStart(x, 2, '0') + rest
  {
    if |x| == 1 {
      assert PadStart(x + rest, 6, '0') == ['0'] + (x + rest);
      assert PadStart(x, 2, '0') == ['0'] + x;
    }
  }

  /** The layout and the value of `HH:MM:SS.mmm` assembled from fields. */
  lemma AssembledClock(H: string, M: string, S: string, F: string, SF: string)
    requires |H| >= 2 && |M| == 2 && |S| == 2 && |F| == 3 && SF == S + "." + F
    requires AllDigits(H) && AllDigits(M) && AllDigits(S) && AllDigits(F)
    requires DigitsValue(M) < 60 && DigitsValue(S) < 60
    ensures
      var c := H + ":" + M + ":" + SF;
      && IsCanonicalClock(c)
      && ClockValue(c) == FieldsValue(H, M, S, F)
  {
    AssembledSlices(H, M, S, F, SF);
    CanonicalFromFields(H + ":" + M + ":" + SF, H, M, S, F);
  }

  lemma AssembledSlices(H: string, M: string, S: string, F: string, SF: string)
    requires |M| == 2 && |S| == 2 && |F| == 3 && SF == S + "." + F
    ensures
      var c := H + ":" + M + ":" + SF;
      && |c| == |H| + 10
      && c[..|c| - 10] == H && c[|c| - 9..|c| - 7] == M
      && c[|c| - 6..|c| - 4] == S && c[|c| - 3..] == F
      && c[|c| - 10] == ':' && c[|c| - 7] == ':' && c[|c| - 4] == '.'
  {
    var T := [':', M[0], M[1], ':', S[0], S[1], '.', F[0], F[1], F[2]];
    var c := H + T;
    assert H + ":" + M + ":" + SF == c;
    assert c[..|c| - 10] == H;
    assert c[|c| - 10..] == T;
    assert c[|c| - 9..|c| - 7] == T[1..3] == M;
    assert c[|c| - 6..|c| - 4] == T[4..6] == S;
    assert c[|c| - 3..] == T[7..] == F;
  }

  lemma CanonicalFromFields(c: string, H: string, M: string, S: string, F: string)
    requires |H| >= 2 && |M| == 2 && |S| == 2 && |F| == 3
    requires AllDigits(H) && AllDigits(M) && AllDigits(S) && AllDigits(F)
    requires DigitsValue(M) < 60 && DigitsValue(S) < 60
    requires |c| == |H| + 10 && c[|c| - 10] == ':' && c[|c| - 7] == ':' && c[|c| - 4] == '.'
    requires c[..|c| - 10] == H && c[|c| - 9..|c| - 7] == M
    requires c[|c| - 6..|c| - 4] == S && c[|c| - 3..] == F
    ensures IsCanonicalClock(c)
    ensures ClockValue(c) == FieldsValue(H, M, S, F)
  {
  }

  lemma ModOfMod(ms: nat)
    ensures ms == (ms / MsPerHour) * MsPerHour + ((ms % MsPerHour) / MsPerMinute) * MsPerMinute
                  + (ms % MsPerMinute / MsPerSecond) * MsPerSecond + ms % MsPerMinute % MsPerSecond
    ensures (ms % MsPerHour) / MsPerMinute < 60 && ms % MsPerMinute / MsPerSecond < 60
  {
    var q := ms / MsPerHour;
    var r := ms % MsPerHour;
    assert ms == q * MsPerHour + r;
    var q2 := r / MsPerMinute;
    var r2 := r % MsPerMinute;
    assert r == q2 * MsPerMinute + r2;
    assert ms == (q * 60 + q2) * MsPerMinute + r2;
    assert ms % MsPerMinute == r2;
  }

  /** Splitting a canonical clock on `:` yields its hours, minutes and
      seconds fields. */
  lemma SplitCanonical(c: string)
    requires IsCanonicalClock(c)
    ensures Split(c, ':') == [c[..|c| - 10], c[|c| - 9..|c| - 7], c[|c| - 6..]]
  {
    var n := |c|;
    var H, M, SF := c[..n - 10], c[n - 9..n - 7], c[n - 6..];
    ClockPieces(c, H, M, SF);
    DigitsHaveNo(H, ':');
    DigitsHaveNo(M, ':');
    SecondsHaveNoColon(SF, c[n - 6..n - 4], c[n - 3..]);
    SplitThree(c, H, M, SF);
  }

  /** A clock cut at its two colons. */
  lemma ClockPieces(c: string, H: string, M: string, SF: string)
    requires |c| >= 10 && c[|c| - 10] == ':' && c[|c| - 7] == ':'
    requires H == c[..|c| - 10] && M == c[|c| - 9..|c| - 7] && SF == c[|c| - 6..]
    ensures c == H + ([':'] + (M + ([':'] + SF)))
  {
    var n := |c|;
    assert c[n - 7..] == [':'] + SF;
    assert c[n - 9..] == M + c[n - 7..];
    assert c[n - 10..] == [':'] + c[n - 9..];
    assert c == H + c[n - 10..];
  }

  lemma SecondsHaveNoColon(SF: string, S: string, F: string)
    requires |SF| == 6 && S == SF[..2] && F == SF[3..] && SF[2] == '.'
    requires AllDigits(S) && AllDigits(F)
    ensures ':' !in SF
  {
    forall i | 0 <= i < 6 ensures SF[i] != ':' {
      if i < 2 { assert SF[i] == S[i]; }
      else if i > 2 { assert SF[i] == F[i - 3]; }
    }
  }

  lemma DigitsHaveNo(s: string, c: char)
    requires AllDigits(s) && !IsDigit(c)
    ensures c !in s
  {
  }

  lemma SplitThree(c: string, a: string, b: string, d: string)
    requires c == a + ([':'] + (b + ([':'] + d)))
    requires ':' !in a && ':' !in b && ':' !in d
    ensures Split(c, ':') == [a, b, d]
  {
    assert c == a + [':'] + (b + [':'] + d);
    SplitAfterField(a, ':', b + [':'] + d);
    SplitAfterField(b, ':', d);
    SplitNoSeparator(d, ':');
  }

  /** A six-character seconds field `SS.mmm` reads as its exact value. */
  lemma ParseSecondsField(S: string, F: string)
    requires |S| == 2 && |F| == 3 && AllDigits(S) && AllDigits(F)
    ensures ParseSeconds(S + "." + F) == Some(DigitsValue(S) * MsPerSecond + DigitsValue(F))
  {
    var sf := S + "." + F;
    DotAfterDigits(S, F);
    ThreeDigitFraction(F);
  }

  /** In whole seconds followed by `.`, the first `.` is the one after the
      digits. */
  lemma DotAfterDigits(W: string, F: string)
    requires AllDigits(W)
    ensures IndexOfChar(W + "." + F, '.') == |W|
    ensures (W + "." + F)[..|W|] == W && (W + "." + F)[|W| + 1..] == F
  {
    var sf := W + "." + F;
    assert sf[..|W|] == W;
    DigitsHaveNo(W, '.');
    IndexOfCharAt(sf, '.', |W|);
  }

  /** A seconds field `W.F`, with any number of whole and fraction digits,
      reads as the whole seconds plus the rounded fraction. */
  lemma ParseSecondsFraction(W: string, F: string)
    requires |W| > 0 && AllDigits(W) && AllDigits(F)
    ensures ParseSeconds(W + "." + F) == Some(SecondsReading(W, F))
  {
    DotAfterDigits(W, F);
  }

  /** A seconds field without a `.` reads as whole seconds. */
  lemma ParseSecondsWhole(W: string)
    requires |W| > 0 && AllDigits(W)
    ensures ParseSeconds(W) == Some(DigitsValue(W) * MsPerSecond)
  {
  }

  /** `W.F` holds no `:`. */
  lemma SecondsFieldHasNoColon(W: string, F: string)
    requires AllDigits(W) && AllDigits(F)
    ensures ':' !in W + "." + F
  {
    var sf := W + "." + F;
    forall i | 0 <= i < |sf|
      ensures sf[i] != ':'
    {
      if i < |W| {
        assert sf[i] == W[i];
      } else if i > |W| {
        assert sf[i] == F[i - |W| - 1];
      }
    }
  }

  /** A clock `H:M:SF` whose three fields hold no `:` splits into them. */
  lemma SplitClock(H: string, M: string, SF: string)
    requires ':' !in H && ':' !in M && ':' !in SF
    ensures Split(H + ":" + M + ":" + SF, ':') == [H, M, SF]
  {
    assert H + ":" + M + ":" + SF == H + ([':'] + (M + ([':'] + SF)));
    SplitThree(H + ":" + M + ":" + SF, H, M, SF);
  }

  /** A clock whose hours and minutes are digits and whose seconds field
      holds no `:` splits into its three fields. */
  lemma ClockFields(H: string, M: string, SF: string)
    requires AllDigits(H) && AllDigits(M) && ':' !in SF
    ensures Split(H + ":" + M + ":" + SF, ':') == [H, M, SF]
  {
    DigitsHaveNo(H, ':');
    DigitsHaveNo(M, ':');
    SplitClock(H, M, SF);
  }

  /** A clock `H:M:W.F` with digit fields splits into `H`, `M` and `W.F`. */
  lemma FractionClockFields(H: string, M: string, W: string, F: string)
    requires AllDigits(H) && AllDigits(M) && AllDigits(W) && AllDigits(F)
    ensures Split(H + ":" + M + ":" + W + "." + F, ':') == [H, M, W + "." + F]
  {
    SecondsFieldHasNoColon(W, F);
    ClockFields(H, M, W + "." + F);
    ClockConcat(H, M, W, F);
  }

  lemma ClockConcat(H: string, M: string, W: string, F: string)
    ensures H + ":" + M + ":" + W + "." + F == H + ":" + M + ":" + (W + "." + F)
  {
  }

  /** Digit hours and minutes fields read as their values, added to the
      reading of the seconds field. */
  lemma ReadFields(H: string, M: string, S: string, sec: nat)
    requires |H| > 0 && |M| > 0 && AllDigits(H) && AllDigits(M)
    requires ParseSeconds(S) == Some(sec)
    ensures DecodeFields([H, M, S]) == Some(DigitsValue(H) * MsPerHour + DigitsValue(M) * MsPerMinute + sec)
  {
  }

  /** Digit fields `H`, `M` and `W.F` read as their values, the fraction
      rounded to the millisecond. */
  lemma FractionFieldsValue(H: string, M: string, W: string, F: string)
    requires |H| > 0 && |M| > 0 && |W| > 0
    requires AllDigits(H) && AllDigits(M) && AllDigits(W) && AllDigits(F)
    ensures DecodeFields([H, M, W + "." + F])
         == Some(DigitsValue(H) * MsPerHour + DigitsValue(M) * MsPerMinute + SecondsReading(W, F))
  {
    ParseSecondsFraction(W, F);
    ReadFields(H, M, W + "." + F, SecondsReading(W, F));
  }

  /** Digit fields `H`, `M` and `W` read as their values. */
  lemma WholeFieldsValue(H: string, M: string, W: string)
    requires |H| > 0 && |M| > 0 && |W| > 0
    requires AllDigits(H) && AllDigits(M) && AllDigits(W)
    ensures DecodeFields([H, M, W])
         == Some(DigitsValue(H) * MsPerHour + DigitsValue(M) * MsPerMinute + DigitsValue(W) * MsPerSecond)
  {
    ParseSecondsWhole(W);
  }

  /** Any well-formed clock, canonical or not: one or more hours, minutes
      and seconds digits (with no bound on minutes or seconds) and any
      number of fraction digits, which are rounded to the millisecond. */
  lemma DecodeWellFormed(H: string, M: string, W: string, F: string)
    requires |H| > 0 && |M| > 0 && |W| > 0
    requires AllDigits(H) && AllDigits(M) && AllDigits(W) && AllDigits(F)
    ensures Decode(H + ":" + M + ":" + W + "." + F)
         == Some(DigitsValue(H) * MsPerHour + DigitsValue(M) * MsPerMinute + SecondsReading(W, F))
  {
    FractionClockFields(H, M, W, F);
    FractionFieldsValue(H, M, W, F);
  }

  /** The same without a fraction: `H:M:W` is whole seconds. */
  lemma DecodeWholeSeconds(H: string, M: string, W: string)
    requires |H| > 0 && |M| > 0 && |W| > 0
    requires AllDigits(H) && AllDigits(M) && AllDigits(W)
    ensures Decode(H + ":" + M + ":" + W)
         == Some(DigitsValue(H) * MsPerHour + DigitsValue(M) * MsPerMinute + DigitsValue(W) * MsPerSecond)
  {
    DigitsHaveNo(W, ':');
    ClockFields(H, M, W);
    WholeFieldsValue(H, M, W);
  }

  /** Three fraction digits are already whole milliseconds: no rounding. */
  lemma ThreeDigitFraction(F: string)
    requires |F| == 3 && AllDigits(F)
    ensures FractionMillis(F) == DigitsValue(F)
  {
    assert Pow10(3) == 1000;
  }

  /** Reading a canonical clock back gives the instant its fields denote. */
  lemma DecodeCanonical(c: string)
    requires IsCanonicalClock(c)
    ensures Decode(c) == Some(ClockValue(c))
  {
    SplitCanonical(c);
    var SF := c[|c| - 6..];
    assert SF == c[|c| - 6..|c| - 4] + "." + c[|c| - 3..];
    ParseSecondsField(c[|c| - 6..|c| - 4], c[|c| - 3..]);
  }

  /** Encoding then decoding returns the same instant. */
  lemma DecodeEncode(ms: nat)
    ensures Decode(Encode(ms)) == Some(ms)
  {
    EncodeCanonical(ms);
    DecodeCanonical(Encode(ms));
  }

  /** `secondsToVTT(timeToSeconds(t))`: the clock the converter prints for a
      transcript offset, NaN included. */
  function Normalize(t: string): string
  {
    match Decode(t)
    case Some(ms) => Encode(ms)
    case None => NaNClock
  }

  /** NaN is not a clock: the NaN rendering decodes to NaN again. */
  lemma DecodeNaNClock()
    ensures Decode(NaNClock) == None
  {
    var fields := ["NaN", "NaN", "000NaN"];
    assert NaNClock == JoinWith(fields, [':']);
    SplitJoin(fields, ':');
    assert !IsDigit(fields[0][0]);
  }

  /** The printed clock denotes the same instant as the offset it came from
      (and NaN stays NaN). */
  lemma NormalizePreservesInstant(t: string)
    ensures Decode(Normalize(t)) == Decode(t)
  {
    match Decode(t)
    case Some(ms) => DecodeEncode(ms);
    case None => DecodeNaNClock();
  }

  /** Normalisation is idempotent: a printed clock re-encodes to itself. */
  lemma NormalizeIdempotent(t: string)
    ensures Normalize(Normalize(t)) == Normalize(t)
  {
    NormalizePreservesInstant(t);
  }

  /** `timeToSeconds("01:02:03.500")` is 3723.5 seconds and
      `secondsToVTT(3723.5)` is "01:02:03.500". */
  lemma ExampleClock()
    ensures Encode(3723500) == "01:02:03.500"
    ensures Decode("01:02:03.500") == Some(3723500)
  {
    ExampleEncode();
    DecodeEncode(3723500);
  }

  /** A one-digit hours field reads like a two-digit one. */
  lemma ExampleShortHours()
    ensures Decode("1:02:03.500") == Some(3723500)
  {
    var h, m, w, f := "1", "02", "03", "500";
    ShortHoursFields();
    DecodeWellFormed(h, m, w, f);
    ShortHoursJoin(h, m, w, f);
  }

  lemma ShortHoursFields()
    ensures AllDigits("1") && AllDigits("02") && AllDigits("03") && AllDigits("500")
    ensures DigitsValue("1") == 1 && DigitsValue("02") == 2 && DigitsValue("03") == 3
    ensures FractionMillis("500") == 500
  {
    ThreeDigitFraction("500");
    assert "500"[..2] == "50";
    assert "50"[..1] == "5";
  }

  lemma ShortHoursJoin(h: string, m: string, w: string, f: string)
    requires h == "1" && m == "02" && w == "03" && f == "500"
    ensures h + ":" + m + ":" + w + "." + f == "1:02:03.500"
  {
  }

  /** Seven fraction digits are rounded to the millisecond. */
  lemma ExampleLongFraction()
    ensures Decode("00:00:03.2900000") == Some(3290)
  {
    var h, m, w, f := "00", "00", "03", "2900000";
    LongFractionFields();
    DecodeWellFormed(h, m, w, f);
    LongFractionJoin(h, m, w, f);
  }

  lemma LongFractionFields()
    ensures AllDigits("00") && AllDigits("03") && AllDigits("2900000")
    ensures DigitsValue("00") == 0 && DigitsValue("03") == 3
    ensures FractionMillis("2900000") == 290
  {
    LongFractionDigits();
    assert Pow10(7) == 10000000;
  }

  lemma LongFractionDigits()
    ensures DigitsValue("2900000") == 2900000
  {
    assert "2900000"[..6] == "290000";
    assert "290000"[..5] == "29000";
    assert "29000"[..4] == "2900";
    assert "2900"[..3] == "290";
    assert "290"[..2] == "29";
    assert "29"[..1] == "2";
  }

  lemma LongFractionJoin(h: string, m: string, w: string, f: string)
    requires h == "00" && m == "00" && w == "03" && f == "2900000"
    ensures h + ":" + m + ":" + w + "." + f == "00:00:03.2900000"
  {
  }

  /** A clock without a fraction is whole seconds. */
  lemma ExampleWholeSeconds()
    ensures Decode("0:0:7") == Some(7000)
  {
    var h, m, w := "0", "0", "7";
    WholeSecondsFields();
    DecodeWholeSeconds(h, m, w);
    WholeSecondsJoin(h, m, w);
  }

  lemma WholeSecondsFields()
    ensures AllDigits("0") && AllDigits("7") && DigitsValue("0") == 0 && DigitsValue("7") == 7
  {
  }

  lemma WholeSecondsJoin(h: string, m: string, w: string)
    requires h == "0" && m == "0" && w == "7"
    ensures h + ":" + m + ":" + w == "0:0:7"
  {
  }

  lemma ExampleEncode()
    ensures Encode(3723500) == "01:02:03.500"
  {
    assert 3723500 / MsPerHour == 1 && (3723500 % MsPerHour) / MsPerMinute == 2;
    assert 3723500 % MsPerMinute == 3500;
    ExamplePads();
    ExampleSecondsField();
    JoinClockFields(Pad2(1), Pad2(2), SecondsField(3500));
  }

  lemma ExampleSecondsField()
    ensures SecondsField(3500) == "03.500"
  {
    ExamplePads();
    JoinSecondsField(Pad2(3), Pad3(500));
    SecondsFieldLayout(3, 500);
  }

  lemma ExamplePads()
    ensures Pad2(1) == "01" && Pad2(2) == "02" && Pad2(3) == "03" && Pad3(500) == "500"
  {
    assert NatToString(1) == "1" && NatToString(2) == "2" && NatToString(3) == "3";
    assert NatToString(500) == "500";
  }

  lemma JoinSecondsField(s: string, f: string)
    requires s == "03" && f == "500"
    ensures s + "." + f == "03.500"
  {
  }

  lemma JoinClockFields(h: string, m: string, sf: string)
    requires h == "01" && m == "02" && sf == "03.500"
    ensures h + ":" + m + ":" + sf == "01:02:03.500"
  {
  }
}

=== FILE: transcript.dfy ===
/** The two transcript converters of the content script: `convertJSONToVTT`
    (a WebVTT track) and `convertJSONToGrouped` (speaker-grouped plain text),
    applied to the already-parsed transcript document. */
module Transcript {
  import opened Wrappers
  import opened Strings
  import opened Timestamp

  /** The JSON value of an entry's `id`: the service sends a string, but an
      integer renders too. */
  datatype IdValue = IdString(s: string) | IdNumber(n: int)

  /** One element of the document's `entries` array. An offset is `None`
      when the member is missing or is not a string: `t.split` then throws,
      and so does the whole conversion. */
  datatype Entry = Entry(
    id: Option<IdValue>,
    startOffset: Option<string>,
    endOffset: Option<string>,
    speakerDisplayName: Option<string>,
    text: Option<string>)

  /** The parsed transcript document; its `entries` member may be missing. */
  datatype Document = Document(entries: Option<seq<Entry>>)

  /** `data.entries || []`. */
  function EntriesOf(doc: Document): seq<Entry> { doc.entries.GetOr([]) }

  const UnknownSpeaker: string := "Unknown"

  const VttHeader: string := "WEBVTT\n\n"

  /** `entry.speakerDisplayName || 'Unknown'`: a missing or empty name is
      replaced by the sentinel, so the result is never empty. */
  function SpeakerOf(e: Entry): (s: string)
    ensures s != ""
  {
    match e.speakerDisplayName
    case Some(name) => if name != "" then name else UnknownSpeaker
    case None => UnknownSpeaker
  }

  /** `entry.text || ''`. */
  function TextOf(e: Entry): string { e.text.GetOr("") }

  /** An id is truthy unless it is the empty string or the number 0. */
  predicate IsTruthyId(id: Option<IdValue>) {
    match id
    case None => false
    case Some(IdString(s)) => s != ""
    case Some(IdNumber(n)) => n != 0
  }

  // ---------------------------------------------------------------------------
  // WebVTT
  // ---------------------------------------------------------------------------

  /** `${entry.id || index + 1}`: the id as text, or the entry's 1-based
      position when the id is missing or falsy. */
  function CueIdentifier(e: Entry, index: nat): (r: string)
    ensures r != ""
  {
    if IsTruthyId(e.id) then
      match e.id.value
      case IdString(s) => s
      case IdNumber(n) => IntToString(n)
    else NatToString(index + 1)
  }

  /** Both offsets are strings, so `timeToSeconds` can split them. */
  predicate HasOffsets(e: Entry)
  {
    e.startOffset.Some? && e.endOffset.Some?
  }

  /** Every entry has both offsets: the converter gets through the list
      without throwing. */
  predicate AllHaveOffsets(es: seq<Entry>)
  {
    forall i :: 0 <= i < |es| ==> HasOffsets(es[i])
  }

  function TimingLine(e: Entry): string
    requires HasOffsets(e)
  {
    Normalize(e.startOffset.value) + " --> " + Normalize(e.endOffset.value)
  }

  /** The cue payload: a voice span naming the speaker (section 4.2.2 of the
      W3C WebVTT specification), followed by the text. */
  function VoiceLine(e: Entry): string { "<v " + SpeakerOf(e) + ">" + TextOf(e) }

  /** The three lines the converter writes for one entry. */
  datatype Cue = Cue(identifier: string, timing: string, payload: string)

  function CueOf(e: Entry, index: nat): Cue
    requires HasOffsets(e)
  {
    Cue(CueIdentifier(e, index), TimingLine(e), VoiceLine(e))
  }

  /** The cue of every entry, numbered by 0-based position. */
  function CuesOf(es: seq<Entry>): (cs: seq<Cue>)
    requires AllHaveOffsets(es)
    ensures |cs| == |es|
  {
    seq(|es|, i requires 0 <= i < |es| => CueOf(es[i], i))
  }

  /** The text appended for one cue: its three lines and a blank line. */
  function RenderCue(c: Cue): string
  {
    c.identifier + "\n" + c.timing + "\n" + c.payload + "\n\n"
  }

  function RenderCues(cs: seq<Cue>): (r: string)
    ensures r == "" <==> cs == []
    decreases |cs|
  {
    if cs == [] then "" else RenderCue(cs[0]) + RenderCues(cs[1..])
  }

  /** `convertJSONToVTT`: the header, then one cue per entry; `None` when
      it throws because an entry lacks an offset. */
  function ConvertJSONToVTT(doc: Document): Option<string>
  {
    var es := EntriesOf(doc);
    if AllHaveOffsets(es) then Some(VttHeader + RenderCues(CuesOf(es))) else None
  }

  /** The conversion fails exactly when some entry lacks an offset; its
      output always starts with the header and is exactly the header when
      there are no entries. */
  lemma VttHeaderOnly(doc: Document)
    ensures ConvertJSONToVTT(doc).None? <==> exists i :: 0 <= i < |EntriesOf(doc)| && !HasOffsets(EntriesOf(doc)[i])
    ensures EntriesOf(doc) == [] ==> ConvertJSONToVTT(doc) == Some(VttHeader)
    ensures ConvertJSONToVTT(doc).Some? ==>
      && |ConvertJSONToVTT(doc).value| >= |VttHeader|
      && ConvertJSONToVTT(doc).value[..|VttHeader|] == VttHeader
      && (ConvertJSONToVTT(doc).value == VttHeader <==> EntriesOf(doc) == [])
  {
    var es := EntriesOf(doc);
    if AllHaveOffsets(es) {
      var body := RenderCues(CuesOf(es));
      assert (VttHeader + body)[..|VttHeader|] == VttHeader;
      if es == [] {
        assert body == "";
        assert VttHeader + body == VttHeader;
      }
      if body != [] {
        assert |VttHeader + body| > |VttHeader|;
      }
    }
  }

  /** Rendering distributes over concatenation: appending cues one at a time
      (the converter's `vtt +=`) gives the rendering of the whole list. */
  lemma {:induction false} RenderCuesAppend(a: seq<Cue>, b: seq<Cue>)
    ensures RenderCues(a + b) == RenderCues(a) + RenderCues(b)
    decreases |a|
  {
    if a != [] {
      assert (a + b)[0] == a[0];
      assert (a + b)[1..] == a[1..] + b;
      RenderCuesAppend(a[1..], b);
      var x, y, z := RenderCue(a[0]), RenderCues(a[1..]), RenderCues(b);
      assert x + (y + z) == (x + y) + z;
    } else {
      assert a + b == b;
    }
  }

  /** An entry whose id, speaker name and text are free of line breaks. */
  predicate SingleLine(e: Entry) {
    && (e.id.Some? && e.id.value.IdString? ==> '\n' !in e.id.value.s)
    && '\n' !in e.speakerDisplayName.GetOr("")
    && '\n' !in e.text.GetOr("")
  }

  predicate CueIsSingleLine(c: Cue) {
    '\n' !in c.identifier && '\n' !in c.timing && '\n' !in c.payload
  }

  lemma CanonicalClockIsSingleLine(c: string)
    requires IsCanonicalClock(c)
    ensures '\n' !in c
  {
    forall i | 0 <= i < |c|
      ensures c[i] != '\n'
    {
      if i < |c| - 10 {
        assert c[i] == c[..|c| - 10][i];
      } else if |c| - 9 <= i < |c| - 7 {
        assert c[i] == c[|c| - 9..|c| - 7][i - (|c| - 9)];
      } else if |c| - 6 <= i < |c| - 4 {
        assert c[i] == c[|c| - 6..|c| - 4][i - (|c| - 6)];
      } else if |c| - 3 <= i {
        assert c[i] == c[|c| - 3..][i - (|c| - 3)];
      }
    }
  }

  lemma NormalizeIsSingleLine(t: string)
    ensures '\n' !in Normalize(t)
  {
    match Decode(t)
    case Some(ms) =>
      EncodeCanonical(ms);
      CanonicalClockIsSingleLine(Encode(ms));
    case None =>
  }

  lemma NumeralIsSingleLine(n: nat)
    ensures '\n' !in NatToString(n)
  {
    var s := NatToString(n);
    assert forall i :: 0 <= i < |s| ==> IsDigit(s[i]);
  }

  lemma IntegerIsSingleLine(n: int)
    ensures '\n' !in IntToString(n)
  {
    var s := IntToString(n);
    if n < 0 {
      assert s[0] == '-';
      assert forall i :: 1 <= i < |s| ==> s[i] == s[1..][i - 1] && IsDigit(s[i]);
    } else {
      assert forall i :: 0 <= i < |s| ==> IsDigit(s[i]);
    }
  }

  lemma NoBreakInJoin(a: string, b: string, c: string)
    requires '\n' !in a && '\n' !in b && '\n' !in c
    ensures '\n' !in a + b + c
  {
  }

  lemma TimingLineIsSingleLine(e: Entry)
    requires HasOffsets(e)
    ensures '\n' !in TimingLine(e)
  {
    var a, b := e.startOffset.value, e.endOffset.value;
    NormalizeIsSingleLine(a);
    NormalizeIsSingleLine(b);
    NoBreakInJoin(Normalize(a), " --> ", Normalize(b));
  }

  lemma IdentifierIsSingleLine(e: Entry, index: nat)
    requires SingleLine(e)
    ensures '\n' !in CueIdentifier(e, index)
  {
    if IsTruthyId(e.id) {
      match e.id.value
      case IdString(s) =>
      case IdNumber(n) => IntegerIsSingleLine(n);
    } else {
      NumeralIsSingleLine(index + 1);
    }
  }

  lemma VoiceLineIsSingleLine(e: Entry)
    requires SingleLine(e)
    ensures '\n' !in VoiceLine(e)
  {
    assert '\n' !in SpeakerOf(e) by {
      assert '\n' !in UnknownSpeaker;
    }
    assert '\n' !in "<v " && '\n' !in ">";
    NoBreakInJoin("<v ", SpeakerOf(e), ">");
    NoBreakInJoin("<v " + SpeakerOf(e) + ">", TextOf(e), "");
    assert VoiceLine(e) == "<v " + SpeakerOf(e) + ">" + TextOf(e) + "";
  }

  /** The cue of a single-line entry has no line break inside its lines. */
  lemma CueOfIsSingleLine(e: Entry, index: nat)
    requires SingleLine(e) && HasOffsets(e)
    ensures CueIsSingleLine(CueOf(e, index))
  {
    IdentifierIsSingleLine(e, index);
    TimingLineIsSingleLine(e);
    VoiceLineIsSingleLine(e);
  }

  lemma CuesAreSingleLine(es: seq<Entry>)
    requires AllHaveOffsets(es)
    requires forall i :: 0 <= i < |es| ==> SingleLine(es[i])
    ensures forall i :: 0 <= i < |es| ==> CueIsSingleLine(CuesOf(es)[i])
  {
    forall i | 0 <= i < |es|
      ensures CueIsSingleLine(CuesOf(es)[i])
    {
      CueOfIsSingleLine(es[i], i);
    }
  }

  /** The lines of the rendered cues, with the empty line that follows the
      final line break. */
  ghost function CueLines(cs: seq<Cue>): seq<string>
    decreases |cs|
  {
    if cs == [] then [""]
    else [cs[0].identifier, cs[0].timing, cs[0].payload, ""] + CueLines(cs[1..])
  }

  /** Splitting a rendered cue and what follows it yields the cue's lines
      and then the lines of the rest. */
  lemma SplitCue(c: Cue, rest: string)
    requires CueIsSingleLine(c)
    ensures Split(RenderCue(c) + rest, '\n') == [c.identifier, c.timing, c.payload, ""] + Split(rest, '\n')
  {
    var t := [] + ['\n'] + rest;
    var tail := Split(rest, '\n');
    CueText(c.identifier, c.timing, c.payload, rest);
    SplitAfterField([], '\n', rest);
    assert Split(t, '\n') == [""] + tail;
    SplitThreeFields(c.identifier, c.timing, c.payload, '\n', t);
    assert [c.identifier, c.timing, c.payload] + ([""] + tail) == [c.identifier, c.timing, c.payload, ""] + tail;
  }

  lemma CueText(a: string, b: string, c: string, rest: string)
    ensures a + "\n" + b + "\n" + c + "\n\n" + rest
         == a + ['\n'] + (b + ['\n'] + (c + ['\n'] + ([] + ['\n'] + rest)))
  {
    assert "\n\n" == ['\n'] + ['\n'];
  }

  lemma {:induction false} SplitCues(cs: seq<Cue>)
    requires forall i :: 0 <= i < |cs| ==> CueIsSingleLine(cs[i])
    ensures Split(RenderCues(cs), '\n') == CueLines(cs)
    decreases |cs|
  {
    if cs == [] {
      SplitNoSeparator("", '\n');
    } else {
      SplitCues(cs[1..]);
      SplitCue(cs[0], RenderCues(cs[1..]));
    }
  }

  lemma {:induction false} CueLinesLength(cs: seq<Cue>)
    ensures |CueLines(cs)| == 4 * |cs| + 1
    ensures CueLines(cs)[4 * |cs|] == ""
    decreases |cs|
  {
    if cs != [] {
      CueLinesLength(cs[1..]);
    }
  }

  /** The lines of the cue at position `i` start at line `4 * i`. */
  lemma {:induction false} CueLinesAt(cs: seq<Cue>, i: nat)
    requires i < |cs|
    ensures
      var L := CueLines(cs);
      && 4 * i + 3 < |L|
      && L[4 * i] == cs[i].identifier
      && L[4 * i + 1] == cs[i].timing
      && L[4 * i + 2] == cs[i].payload
      && L[4 * i + 3] == ""
    decreases i
  {
    CueLinesLength(cs);
    if i > 0 {
      CueLinesAt(cs[1..], i - 1);
      assert cs[1..][i - 1] == cs[i];
    }
  }

  /** The header contributes the lines `WEBVTT` and an empty line. */
  lemma HeaderLines(body: string)
    ensures Split(VttHeader + body, '\n') == ["WEBVTT", ""] + Split(body, '\n')
  {
    var tail := [] + ['\n'] + body;
    assert VttHeader + body == "WEBVTT" + ['\n'] + tail;
    SplitAfterField("WEBVTT", '\n', tail);
    SplitAfterField([], '\n', body);
  }

  /** Line by line, a rendered track is the `WEBVTT` header and a blank
      line, then the lines of its cues. */
  lemma RenderedLines(cs: seq<Cue>)
    requires forall i :: 0 <= i < |cs| ==> CueIsSingleLine(cs[i])
    ensures Split(VttHeader + RenderCues(cs), '\n') == ["WEBVTT", ""] + CueLines(cs)
  {
    SplitCues(cs);
    HeaderLines(RenderCues(cs));
  }

  /** The lines of a list of cues: four per cue, in order, and a final
      empty one. */
  lemma CueLinesAll(cs: seq<Cue>)
    ensures |CueLines(cs)| == 4 * |cs| + 1 && CueLines(cs)[4 * |cs|] == ""
    ensures forall i :: 0 <= i < |cs| ==>
      && CueLines(cs)[4 * i] == cs[i].identifier
      && CueLines(cs)[4 * i + 1] == cs[i].timing
      && CueLines(cs)[4 * i + 2] == cs[i].payload
      && CueLines(cs)[4 * i + 3] == ""
  {
    CueLinesLength(cs);
    forall i | 0 <= i < |cs|
      ensures
        && CueLines(cs)[4 * i] == cs[i].identifier
        && CueLines(cs)[4 * i + 1] == cs[i].timing
        && CueLines(cs)[4 * i + 2] == cs[i].payload
        && CueLines(cs)[4 * i + 3] == ""
    {
      CueLinesAt(cs, i);
    }
  }

  /** Putting the two header lines in front shifts every cue line by two. */
  lemma ShiftByHeader(lines: seq<string>, L: seq<string>, cs: seq<Cue>)
    requires lines == ["WEBVTT", ""] + L
    requires |L| == 4 * |cs| + 1 && L[4 * |cs|] == ""
    requires forall i :: 0 <= i < |cs| ==>
      L[4 * i] == cs[i].identifier && L[4 * i + 1] == cs[i].timing
      && L[4 * i + 2] == cs[i].payload && L[4 * i + 3] == ""
    ensures |lines| == 4 * |cs| + 3
    ensures lines[0] == "WEBVTT" && lines[1] == "" && lines[|lines| - 1] == ""
    ensures forall i :: 0 <= i < |cs| ==>
      && lines[4 * i + 2] == cs[i].identifier
      && lines[4 * i + 3] == cs[i].timing
      && lines[4 * i + 4] == cs[i].payload
      && lines[4 * i + 5] == ""
  {
    forall i | 0 <= i < |cs|
      ensures
        && lines[4 * i + 2] == cs[i].identifier
        && lines[4 * i + 3] == cs[i].timing
        && lines[4 * i + 4] == cs[i].payload
        && lines[4 * i + 5] == ""
    {
      assert lines[4 * i + 2] == L[4 * i];
      assert lines[4 * i + 3] == L[4 * i + 1];
      assert lines[4 * i + 4] == L[4 * i + 2];
      assert lines[4 * i + 5] == L[4 * i + 3];
    }
  }

  /** The output of `convertJSONToVTT`, line by line: the header, then for
      each entry in input order its identifier, its `start --> end` timing,
      its voice line and a blank line. */
  lemma VttLines(doc: Document, lines: seq<string>)
    requires forall i :: 0 <= i < |EntriesOf(doc)| ==> SingleLine(EntriesOf(doc)[i])
    requires ConvertJSONToVTT(doc).Some? && lines == Split(ConvertJSONToVTT(doc).value, '\n')
    ensures var es := EntriesOf(doc);
      && |lines| == 4 * |es| + 3
      && lines[0] == "WEBVTT" && lines[1] == "" && lines[|lines| - 1] == ""
      && forall i :: 0 <= i < |es| ==>
           && lines[4 * i + 2] == CueIdentifier(es[i], i)
           && lines[4 * i + 3] == TimingLine(es[i])
           && lines[4 * i + 4] == VoiceLine(es[i])
           && lines[4 * i + 5] == ""
  {
    EntryLines(EntriesOf(doc), lines);
  }

  /** `VttLines` for a list of entries that all have offsets. */
  lemma EntryLines(es: seq<Entry>, lines: seq<string>)
    requires AllHaveOffsets(es)
    requires forall i :: 0 <= i < |es| ==> SingleLine(es[i])
    requires lines == Split(VttHeader + RenderCues(CuesOf(es)), '\n')
    ensures |lines| == 4 * |es| + 3
    ensures lines[0] == "WEBVTT" && lines[1] == "" && lines[|lines| - 1] == ""
    ensures forall i :: 0 <= i < |es| ==>
      && lines[4 * i + 2] == CueIdentifier(es[i], i)
      && lines[4 * i + 3] == TimingLine(es[i])
      && lines[4 * i + 4] == VoiceLine(es[i])
      && lines[4 * i + 5] == ""
  {
    var cs := CuesOf(es);
    CuesAreSingleLine(es);
    RenderedLines(cs);
    CueLinesAll(cs);
    ShiftByHeader(lines, CueLines(cs), cs);
    forall i | 0 <= i < |es|
      ensures cs[i] == Cue(CueIdentifier(es[i], i), TimingLine(es[i]), VoiceLine(es[i]))
    {
    }
  }

  /** The identifier of a cue is the entry's id when that is truthy (a
      string as it is, an integer as its decimal numeral, signed when
      negative), and otherwise the decimal numeral of its 1-based position.
      No numeral has a leading zero, so by `Strings.CanonicalNumeral` each is
      the one text JavaScript prints. */
  lemma CueIdentifierValue(e: Entry, index: nat)
    ensures e.id.Some? && e.id.value.IdString? && IsTruthyId(e.id) ==> CueIdentifier(e, index) == e.id.value.s
    ensures e.id.Some? && e.id.value.IdNumber? && IsTruthyId(e.id) && e.id.value.n < 0 ==>
      var r := CueIdentifier(e, index);
      |r| > 1 && r[0] == '-' && AllDigits(r[1..]) && r[1] != '0' && DigitsValue(r[1..]) == -e.id.value.n
    ensures e.id.Some? && e.id.value.IdNumber? && IsTruthyId(e.id) && e.id.value.n > 0 ==>
      var r := CueIdentifier(e, index);
      |r| >= 1 && AllDigits(r) && r[0] != '0' && DigitsValue(r) == e.id.value.n
    ensures !IsTruthyId(e.id) ==>
      var r := CueIdentifier(e, index);
      |r| >= 1 && AllDigits(r) && r[0] != '0' && DigitsValue(r) == index + 1
  {
  }

  // ---------------------------------------------------------------------------
  // Speaker-grouped text
  // ---------------------------------------------------------------------------

  /** A run of consecutive entries by one speaker: the speaker and the
      entries' texts in order. */
  datatype Run = Run(speaker: string, texts: seq<string>)

  /** Adds one (speaker, text) pair to the runs seen so far: it joins the
      last run when the speaker is unchanged and opens a new run otherwise. */
  function AddLabel(rs: seq<Run>, speaker: string, text: string): (r: seq<Run>)
    ensures |r| == |rs| || |r| == |rs| + 1
    ensures r != []
  {
    if rs != [] && rs[|rs| - 1].speaker == speaker
    then rs[..|rs| - 1] + [Run(speaker, rs[|rs| - 1].texts + [text])]
    else rs + [Run(speaker, [text])]
  }

  /** The runs of `es`: consecutive entries whose speaker (after the
      fallback) is unchanged are gathered into one run. */
  function Runs(es: seq<Entry>): (rs: seq<Run>)
    ensures |rs| <= |es|
    ensures rs == [] <==> es == []
    decreases |es|
  {
    if es == [] then []
    else AddLabel(Runs(es[..|es| - 1]), SpeakerOf(es[|es| - 1]), TextOf(es[|es| - 1]))
  }

  /** One more entry of `es` adds its label to the runs of the prefix. */
  lemma RunsStep(es: seq<Entry>, i: nat)
    requires i < |es|
    ensures Runs(es[..i + 1]) == AddLabel(Runs(es[..i]), SpeakerOf(es[i]), TextOf(es[i]))
  {
    assert es[..i + 1][..i] == es[..i];
  }

  /** A (speaker, text) pair per entry, in order. */
  type Label = (string, string)

  /** The pairs of one run: its speaker with each of its texts. */
  function Tag(speaker: string, texts: seq<string>): (ls: seq<Label>)
    ensures |ls| == |texts|
  {
    seq(|texts|, j requires 0 <= j < |texts| => (speaker, texts[j]))
  }

  /** The (speaker, text) pair of every entry, in order. */
  ghost function Labels(es: seq<Entry>): seq<Label>
  {
    seq(|es|, i requires 0 <= i < |es| => (SpeakerOf(es[i]), TextOf(es[i])))
  }

  /** The pairs a sequence of runs stands for, in order. */
  ghost function Expand(rs: seq<Run>): seq<Label>
    decreases |rs|
  {
    if rs == [] then []
    else Expand(rs[..|rs| - 1]) + Tag(rs[|rs| - 1].speaker, rs[|rs| - 1].texts)
  }

  /** No run is empty and neighbouring runs have different speakers. */
  ghost predicate WellFormedRuns(rs: seq<Run>) {
    && (forall i :: 0 <= i < |rs| ==> rs[i].texts != [])
    && (forall i :: 0 < i < |rs| ==> rs[i - 1].speaker != rs[i].speaker)
  }

  /** `rs` splits the entries into maximal same-speaker runs: well formed,
      and together the runs list every entry's speaker and text in order. */
  ghost predicate IsMaximalRuns(rs: seq<Run>, es: seq<Entry>) {
    WellFormedRuns(rs) && Expand(rs) == Labels(es)
  }

  lemma ExpandSnoc(rs: seq<Run>, r: Run)
    ensures Expand(rs + [r]) == Expand(rs) + Tag(r.speaker, r.texts)
  {
    assert (rs + [r])[..|rs|] == rs;
  }

  lemma TagSnoc(speaker: string, texts: seq<string>, text: string)
    ensures Tag(speaker, texts + [text]) == Tag(speaker, texts) + [(speaker, text)]
  {
  }

  lemma LabelsSnoc(es: seq<Entry>, e: Entry)
    ensures Labels(es + [e]) == Labels(es) + [(SpeakerOf(e), TextOf(e))]
  {
  }

  /** Adding a pair keeps the runs well formed and adds exactly that pair to
      what they stand for. */
  lemma {:induction false} AddLabelStep(rs: seq<Run>, speaker: string, text: string)
    requires WellFormedRuns(rs)
    ensures WellFormedRuns(AddLabel(rs, speaker, text))
    ensures Expand(AddLabel(rs, speaker, text)) == Expand(rs) + [(speaker, text)]
  {
    var r := AddLabel(rs, speaker, text);
    if rs != [] && rs[|rs| - 1].speaker == speaker {
      var body, last := rs[..|rs| - 1], rs[|rs| - 1];
      assert rs == body + [last];
      ExpandSnoc(body, last);
      ExpandSnoc(body, Run(speaker, last.texts + [text]));
      TagSnoc(speaker, last.texts, text);
      var X, T := Expand(body), Tag(speaker, last.texts);
      assert X + (T + [(speaker, text)]) == (X + T) + [(speaker, text)];
    } else {
      ExpandSnoc(rs, Run(speaker, [text]));
      assert Tag(speaker, [text]) == [(speaker, text)];
    }
  }

  /** `Runs` produces the maximal-run decomposition. */
  lemma {:induction false} RunsAreMaximal(es: seq<Entry>)
    ensures IsMaximalRuns(Runs(es), es)
    decreases |es|
  {
    if es != [] {
      var init, e := es[..|es| - 1], es[|es| - 1];
      assert es == init + [e];
      RunsAreMaximal(init);
      AddLabelStep(Runs(init), SpeakerOf(e), TextOf(e));
      LabelsSnoc(init, e);
    }
  }

  /** The maximal-run decomposition is unique, so `Runs` is the only
      function meeting `IsMaximalRuns`. */
  lemma MaximalRunsUnique(rs: seq<Run>, es: seq<Entry>)
    requires IsMaximalRuns(rs, es)
    ensures rs == Runs(es)
  {
    RunsAreMaximal(es);
    ExpandDeterminesRuns(rs, Runs(es));
  }

  /** All pairs of `ls` carry the speaker `speaker`. */
  ghost predicate AllBy(ls: seq<Label>, speaker: string) {
    forall k :: 0 <= k < |ls| ==> ls[k].0 == speaker
  }

  /** Two ways of cutting one sequence into a prefix and a suffix by
      `speaker`, where the prefix does not end with `speaker`, are the same
      cut. */
  lemma SameSpeakerSuffix(X1: seq<Label>, T1: seq<Label>, X2: seq<Label>, T2: seq<Label>, speaker: string)
    requires X1 + T1 == X2 + T2
    requires AllBy(T1, speaker) && AllBy(T2, speaker)
    requires X1 != [] ==> X1[|X1| - 1].0 != speaker
    requires X2 != [] ==> X2[|X2| - 1].0 != speaker
    ensures X1 == X2 && T1 == T2
  {
    var E := X1 + T1;
    if |X1| < |X2| {
      PrefixEndsInSuffix(X1, T1, X2, T2, speaker);
      assert false;
    } else if |X2| < |X1| {
      PrefixEndsInSuffix(X2, T2, X1, T1, speaker);
      assert false;
    }
    assert X1 == E[..|X1|] == X2;
  }

  /** When the first cut is earlier, the second prefix ends inside the first
      suffix, so by `speaker`. */
  lemma PrefixEndsInSuffix(X1: seq<Label>, T1: seq<Label>, X2: seq<Label>, T2: seq<Label>, speaker: string)
    requires X1 + T1 == X2 + T2 && |X1| < |X2|
    requires AllBy(T1, speaker)
    ensures X2[|X2| - 1].0 == speaker
  {
    var E := X1 + T1;
    assert E[|X2| - 1] == X2[|X2| - 1];
    assert E[|X2| - 1] == T1[|X2| - 1 - |X1|];
  }

  lemma TagInjective(speaker: string, ts1: seq<string>, ts2: seq<string>)
    requires Tag(speaker, ts1) == Tag(speaker, ts2)
    ensures ts1 == ts2
  {
    forall j | 0 <= j < |ts1|
      ensures ts1[j] == ts2[j]
    {
      assert Tag(speaker, ts1)[j] == (speaker, ts1[j]);
    }
  }

  /** The last pair before a well-formed sequence's final run belongs to
      another speaker. */
  lemma ExpandBoundary(rs: seq<Run>)
    requires rs != [] && WellFormedRuns(rs)
    ensures var X := Expand(rs[..|rs| - 1]);
      X != [] ==> X[|X| - 1].0 != rs[|rs| - 1].speaker
  {
    var b := rs[..|rs| - 1];
    if b != [] {
      var p := b[|b| - 1];
      assert b == b[..|b| - 1] + [p];
      ExpandSnoc(b[..|b| - 1], p);
      assert p.texts != [] && p.speaker == rs[|rs| - 2].speaker;
      var X := Expand(b);
      assert X[|X| - 1] == Tag(p.speaker, p.texts)[|p.texts| - 1];
    }
  }

  lemma LastLabel(rs: seq<Run>)
    requires rs != [] && WellFormedRuns(rs)
    ensures var E := Expand(rs); E != [] && E[|E| - 1].0 == rs[|rs| - 1].speaker
  {
    var r := rs[|rs| - 1];
    assert r.texts != [];
    assert Tag(r.speaker, r.texts)[|r.texts| - 1].0 == r.speaker;
  }

  /** The pairs of a non-empty well-formed sequence of runs: those of the
      earlier runs, which do not end with the last run's speaker, then the
      last run's own pairs. */
  lemma ExpandLastRun(rs: seq<Run>)
    requires rs != [] && WellFormedRuns(rs)
    ensures
      var r := rs[|rs| - 1];
      var X := Expand(rs[..|rs| - 1]);
      var E := Expand(rs);
      && E == X + Tag(r.speaker, r.texts)
      && AllBy(Tag(r.speaker, r.texts), r.speaker)
      && E != [] && E[|E| - 1].0 == r.speaker
      && (X != [] ==> X[|X| - 1].0 != r.speaker)
  {
    LastLabel(rs);
    ExpandBoundary(rs);
  }

  /** Two non-empty well-formed sequences of runs that stand for the same
      pairs end with the same run, after prefixes that stand for the same
      pairs. */
  lemma SameLastRun(rs1: seq<Run>, rs2: seq<Run>)
    requires rs1 != [] && rs2 != []
    requires WellFormedRuns(rs1) && WellFormedRuns(rs2)
    requires Expand(rs1) == Expand(rs2)
    ensures rs1[|rs1| - 1] == rs2[|rs2| - 1]
    ensures Expand(rs1[..|rs1| - 1]) == Expand(rs2[..|rs2| - 1])
  {
    var r1, r2 := rs1[|rs1| - 1], rs2[|rs2| - 1];
    ExpandLastRun(rs1);
    ExpandLastRun(rs2);
    SameSpeakerSuffix(Expand(rs1[..|rs1| - 1]), Tag(r1.speaker, r1.texts), Expand(rs2[..|rs2| - 1]), Tag(r2.speaker, r2.texts), r1.speaker);
    TagInjective(r1.speaker, r1.texts, r2.texts);
  }

  /** Well-formed runs are determined by the pairs they stand for. */
  lemma {:induction false} ExpandDeterminesRuns(rs1: seq<Run>, rs2: seq<Run>)
    requires WellFormedRuns(rs1) && WellFormedRuns(rs2)
    requires Expand(rs1) == Expand(rs2)
    ensures rs1 == rs2
    decreases |rs1|
  {
    if rs1 == [] || rs2 == [] {
      if rs1 != [] { LastLabel(rs1); }
      if rs2 != [] { LastLabel(rs2); }
    } else {
      var b1, b2 := rs1[..|rs1| - 1], rs2[..|rs2| - 1];
      SameLastRun(rs1, rs2);
      assert WellFormedRuns(b1) && WellFormedRuns(b2);
      ExpandDeterminesRuns(b1, b2);
      assert rs1 == b1 + [rs1[|rs1| - 1]] && rs2 == b2 + [rs2[|rs2| - 1]];
    }
  }

  /** `bufferText` for a run: the run's texts joined by single spaces. */
  function Buffer(r: Run): string { JoinWith(r.texts, " ") }

  /** The emitted block of every run, in order; a run whose buffer is the
      empty string (and so falsy) emits nothing. */
  function Blocks(rs: seq<Run>): (bs: seq<string>)
    ensures |bs| <= |rs|
    decreases |rs|
  {
    if rs == [] then []
    else
      var r := rs[|rs| - 1];
      Blocks(rs[..|rs| - 1]) + (if Buffer(r) != "" then [r.speaker + ": " + Trim(Buffer(r))] else [])
  }

  /** The speaker-grouped text of `es`: the blocks joined by blank lines. */
  function Grouped(es: seq<Entry>): string
  {
    JoinWith(Blocks(Runs(es)), "\n\n")
  }

  lemma {:induction false} JoinSnoc(parts: seq<string>, sep: string, last: string)
    requires parts != []
    ensures JoinWith(parts + [last], sep) == JoinWith(parts, sep) + sep + last
    decreases |parts|
  {
    if |parts| == 1 {
      assert parts + [last] == [parts[0], last];
    } else {
      assert (parts + [last])[1..] == parts[1..] + [last];
      JoinSnoc(parts[1..], sep, last);
    }
  }

  /** The converter's loop state after the entries whose runs are `rs`:
      the current speaker and buffer describe the last run, and every
      earlier run has already been flushed. */
  ghost predicate GroupState(rs: seq<Run>, currentSpeaker: Option<string>, bufferText: string, grouped: seq<string>)
  {
    if rs == [] then currentSpeaker == None && bufferText == "" && grouped == []
    else
      var last := rs[|rs| - 1];
      && currentSpeaker == Some(last.speaker)
      && last.speaker != ""
      && last.texts != []
      && bufferText == Buffer(last)
      && grouped == Blocks(rs[..|rs| - 1])
  }

  /** A new speaker opens a new run holding just the text. */
  lemma OpenRun(rs: seq<Run>, speaker: string, text: string)
    requires rs == [] || rs[|rs| - 1].speaker != speaker
    ensures var r := AddLabel(rs, speaker, text);
      r[..|r| - 1] == rs && r[|r| - 1] == Run(speaker, [text]) && Buffer(r[|r| - 1]) == text
  {
    var r := AddLabel(rs, speaker, text);
    assert r == rs + [Run(speaker, [text])];
    assert r[..|r| - 1] == rs;
  }

  /** The same speaker again extends the last run, and its buffer grows by a
      space and the text. */
  lemma ExtendRun(rs: seq<Run>, speaker: string, text: string)
    requires rs != [] && rs[|rs| - 1].speaker == speaker && rs[|rs| - 1].texts != []
    ensures var r := AddLabel(rs, speaker, text);
      && r[..|r| - 1] == rs[..|rs| - 1]
      && r[|r| - 1] == Run(speaker, rs[|rs| - 1].texts + [text])
      && Buffer(r[|r| - 1]) == Buffer(rs[|rs| - 1]) + " " + text
  {
    var r := AddLabel(rs, speaker, text);
    assert r[..|r| - 1] == rs[..|rs| - 1];
    JoinSnoc(rs[|rs| - 1].texts, " ", text);
  }

  /** Flushing the last run's buffer completes the blocks of all runs. */
  lemma FlushRun(rs: seq<Run>)
    requires rs != []
    ensures Blocks(rs) == Blocks(rs[..|rs| - 1]) +
      (if Buffer(rs[|rs| - 1]) != "" then [rs[|rs| - 1].speaker + ": " + Trim(Buffer(rs[|rs| - 1]))] else [])
  {
  }

  /** A speaker change: the buffer of the open run, if non-empty, is pushed
      as a block, and a new run starts with the text. */
  lemma GroupOpen(rs: seq<Run>, currentSpeaker: Option<string>, bufferText: string, grouped: seq<string>,
                  speaker: string, text: string)
    requires GroupState(rs, currentSpeaker, bufferText, grouped)
    requires speaker != "" && currentSpeaker != Some(speaker)
    ensures GroupState(AddLabel(rs, speaker, text), Some(speaker), text,
                       if bufferText != "" then grouped + [currentSpeaker.value + ": " + Trim(bufferText)] else grouped)
  {
    OpenRun(rs, speaker, text);
    if rs != [] {
      FlushRun(rs);
    }
  }

  /** The same speaker again: the text is appended to the buffer after a
      space. */
  lemma GroupExtend(rs: seq<Run>, currentSpeaker: Option<string>, bufferText: string, grouped: seq<string>,
                    speaker: string, text: string)
    requires GroupState(rs, currentSpeaker, bufferText, grouped)
    requires currentSpeaker == Some(speaker)
    ensures GroupState(AddLabel(rs, speaker, text), currentSpeaker, bufferText + " " + text, grouped)
  {
    ExtendRun(rs, speaker, text);
  }

  /** The final flush completes the blocks of all runs. */
  lemma GroupFinish(rs: seq<Run>, currentSpeaker: Option<string>, bufferText: string, grouped: seq<string>)
    requires GroupState(rs, currentSpeaker, bufferText, grouped)
    ensures Blocks(rs) ==
      if bufferText != "" && currentSpeaker.Some? && currentSpeaker.value != ""
      then grouped + [currentSpeaker.value + ": " + Trim(bufferText)] else grouped
  {
    if rs != [] {
      FlushRun(rs);
    }
  }

  /** `convertJSONToGrouped`, as the content script computes it: one pass
      over the entries with a current speaker and a text buffer that is
      flushed when the speaker changes and once more at the end. */
  method ConvertJSONToGrouped(doc: Document) returns (r: string)
    ensures r == Grouped(EntriesOf(doc))
  {
    var entries := EntriesOf(doc);
    var grouped: seq<string> := [];
    var currentSpeaker: Option<string> := None;
    var bufferText := "";
    for i := 0 to |entries|
      invariant GroupState(Runs(entries[..i]), currentSpeaker, bufferText, grouped)
    {
      var speaker := SpeakerOf(entries[i]);
      var text := TextOf(entries[i]);
      ghost var rs := Runs(entries[..i]);
      RunsStep(entries, i);
      if currentSpeaker != Some(speaker) {
        GroupOpen(rs, currentSpeaker, bufferText, grouped, speaker, text);
        if bufferText != "" {
          grouped := grouped + [currentSpeaker.value + ": " + Trim(bufferText)];
        }
        currentSpeaker := Some(speaker);
        bufferText := text;
      } else {
        GroupExtend(rs, currentSpeaker, bufferText, grouped, speaker, text);
        bufferText := bufferText + " " + text;
      }
    }
    assert entries[..|entries|] == entries;
    GroupFinish(Runs(entries), currentSpeaker, bufferText, grouped);
    if bufferText != "" && currentSpeaker.Some? && currentSpeaker.value != "" {
      grouped := grouped + [currentSpeaker.value + ": " + Trim(bufferText)];
    }
    r := JoinWith(grouped, "\n\n");
  }

  /** A run is dropped exactly when it is a single entry with empty text:
      any two texts joined by a space already make a non-empty buffer. */
  lemma BufferEmptyIff(r: Run)
    requires r.texts != []
    ensures Buffer(r) == "" <==> r.texts == [""]
  {
    if |r.texts| > 1 {
      assert |Buffer(r)| >= 1;
    }
  }

  /** Every block is a run's speaker, a colon and a space, then the run's
      buffer trimmed; so the number of blocks never exceeds the number of
      maximal runs, which never exceeds the number of entries. */
  lemma {:induction false} BlocksShape(rs: seq<Run>)
    ensures |Blocks(rs)| <= |rs|
    ensures forall k :: 0 <= k < |Blocks(rs)| ==>
      exists i :: 0 <= i < |rs| && Buffer(rs[i]) != "" && Blocks(rs)[k] == rs[i].speaker + ": " + Trim(Buffer(rs[i]))
    decreases |rs|
  {
    if rs != [] {
      var b := rs[..|rs| - 1];
      BlocksShape(b);
      forall k | 0 <= k < |Blocks(b)|
        ensures exists i :: 0 <= i < |rs| && Buffer(rs[i]) != "" && Blocks(rs)[k] == rs[i].speaker + ": " + Trim(Buffer(rs[i]))
      {
        var i :| 0 <= i < |b| && Buffer(b[i]) != "" && Blocks(b)[k] == b[i].speaker + ": " + Trim(Buffer(b[i]));
        assert rs[i] == b[i];
      }
    }
  }

  /** The grouped text is empty exactly when no block was emitted: every
      block starts with a speaker name and ": ", so joining any blocks gives
      a non-empty string. In particular no entries give the empty string. */
  lemma GroupedEmptyIff(es: seq<Entry>)
    ensures Grouped(es) == "" <==> Blocks(Runs(es)) == []
    ensures es == [] ==> Grouped(es) == ""
  {
    var bs := Blocks(Runs(es));
    if bs != [] {
      BlocksShape(Runs(es));
      assert |bs[0]| >= 2;
      assert JoinWith(bs, "\n\n")[..|bs[0]|] == bs[0] by {
        JoinStartsWithFirst(bs, "\n\n");
      }
    }
  }

  lemma JoinStartsWithFirst(parts: seq<string>, sep: string)
    requires parts != []
    ensures |JoinWith(parts, sep)| >= |parts[0]| && JoinWith(parts, sep)[..|parts[0]|] == parts[0]
  {
  }
}

=== FILE: wrappers.dfy ===
/** The "maybe absent" value of the extension's JavaScript: `None` stands for
    `undefined`, `null` or `NaN`, `Some(v)` for a present value. */
module Wrappers {

  datatype Option<+T> = None | Some(value: T) {

    /** The value if present, otherwise `default` (JavaScript's `x ?? default`). */
    function GetOr(default: T): T {
      match this
      case Some(v) => v
      case None => default
    }
  }
}
